=== FILE: README.md ===
# Progress dashboard decision logic, in Dafny

This project models the read-only decision logic of a progress dashboard. The dashboard reads a class's workbook and reports on it:

- which assessment components of the class are locked;
- a per-course status table;
- whether the class's final results are approved;
- which tabs of the workbook hold the approved and the provisional final results;
- which file name an export gets.

All of it lives in `1.py`. The model takes the loaded data as plain values:

- the tab titles of a workbook, as a list in the order the sheet service returns them;
- each loaded sheet, as a header row plus records of strings.

Modules:

- `Text` (text.dfy): the string operations Python provides, on ASCII text:
  - `lower`, `strip` and `split`;
  - substring `in`;
  - `re.sub` of a character-class run;
  - `replace`.
- `Normalize` (normalize.dfy): `_norm` and `_klass_variants`.
- `FinalTabs` (final_tabs.dfy) holds `find_final_tabs`:
  - a specification (`ApprovedTab`, `ProvisionalTab`), which tier fills each slot;
  - an imperative method (`FindFinalTabs`) with the source's loops, `break`s and `if not slot` guards, proved equal to that specification.
- `FinalTabsFacts` (final_tabs_facts.dfy): what the search promises:
  - where the answers come from;
  - what they look like;
  - which tier wins.
- `Frames` (frames.dfy): loaded sheets, `DataFrame.empty`, a missing column read as `""`, a record shorter than the header padded with `None` (as pandas pads it when some record reaches every header column), and `astype(str)`, which shows that `None` as the text "None".
- `Locks` (locks.dfy): `_prep_cfg` and `all_components_locked_for_class`, with the lock rule.
- `LockTable` (lock_table.dfy): `per_course_lock_table`, with de-duplication and the (CourseCode, Component) sort.
- `Approvals` (approvals.dfy): `is_class_final_approved`.
- `Slug` (slug.dfy): `_slug`.
- `Workbooks` (workbooks.dfy): the inline choice of class folder and spreadsheet.

Behaviours of the code that the model keeps and proves:

- **"Approved" reads as provisional.** The provisional markers are substring tests, and "approved" contains "prov". So a title such as "Class Final Approved" is put in the provisional slot (`ApprovedWordIsProv`). The approved slot can hold a title marked provisional only through the literal tier (`ProvisionalInApprovedSlot`).
- **Some literals can never be used.** Each provisional literal of the third tier is itself a final, provisional title. The second tier has therefore already filled the slot whenever one of them is present (`ProvisionalLiteralsUnused`).
- **An empty class name matches every final title** (`EmptyClassMatchesAll`).
- **A "Scope" header hides a record.** When the approvals sheet's first column is headed "Scope", its first record is skipped. A sheet whose only record is (ClassFinal, Second Year) under a (Scope, Key) header therefore does not approve "Second Year" (`LoneScopedRecordIgnored`).
- **Lock keys can collide.** A lock key is a plain concatenation `code || component`. Two records with different course codes can share a key, and so a lock, when a cell contains `||` (`KeyCollision`).

## Model

| member | source | states |
|---|---|---|
| Normalize.NormIsNormal | 1.py:215-216 | a normalised title holds only a-z, 0-9 and single interior spaces, with no space at either end |
| Normalize.NormIdempotent | 1.py:215-216 | normalising twice is normalising once |
| Normalize.NormKeepsWord | 1.py:215-216 | a word of ASCII letters and digits anywhere in a title survives normalisation, lower-cased, as a substring |
| Normalize.KlassVariants | 1.py:218-228 | the stripped class name and its space-free spelling are variants; no variant is longer than the stripped name; with no '/' or ' ' the stripped name is the only variant |
| Normalize.NormSpelling | 1.py:215-227 | writing '/' or ' ' as '-' or '_' does not change the normalised form, so those spellings normalise like the class name itself |
| Normalize.NormalizedVariants | 1.py:239 | the normalised class name is among the normalised variants, and every one of them is in normal shape |
| Normalize.NormalizedVariantsExact | 1.py:217-239 | the normalised variants are exactly two strings: the normalised class name and the normalised class name with its spaces dropped |
| FinalTabs.CollectCandidates | 1.py:242-247 | the candidates are exactly the final titles that name the class (by a normalised variant or by all class words), in list order |
| FinalTabs.PickOfSelect | 1.py:249-257 | searching the candidates for a final tab of a given marking finds the first title passing both the candidate test and that marking |
| FinalTabs.CandidatesPick | 1.py:242-257 | the first tier's answer for a slot is the first final, class-naming title with that slot's marking |
| FinalTabs.FillSlots | 1.py:249-267 | a tier leaves a filled slot untouched and fills an empty one with the first final title of the matching marking, even though it stops once both slots are filled |
| FinalTabs.FirstPresent | 1.py:269-276 | the literal tier returns the first literal, in the fixed order, that is exactly one of the titles, or "" |
| FinalTabs.FindFinalTabs | 1.py:231-278 | the method returns the slots the three tiers define, including "" and "" for an empty title list |
| FinalTabsFacts.SlotIsTitle | 1.py:231-278 | each slot is "" or one of the titles |
| FinalTabsFacts.SlotIsFinal | 1.py:244-276 | a filled slot normalises to something containing "final"; a filled provisional slot holds a provisional marker |
| FinalTabsFacts.NoFinalNoTabs | 1.py:234-278 | with no final title, in particular with no titles, both slots are "" |
| FinalTabsFacts.ClassTitleWins | 1.py:242-257 | the earliest final, class-naming title with the slot's marking fills the slot, beating every other tier |
| FinalTabsFacts.FinalTitleWins | 1.py:259-267 | with no class-naming candidate for the slot, the earliest final title with the slot's marking fills it, beating the literals |
| FinalTabsFacts.LiteralWins | 1.py:269-276 | with no final title of the slot's marking, the slot is the first literal, in order, that is exactly a title |
| FinalTabsFacts.ApprovedLiteralFinal | 1.py:270-272 | every approved literal normalises to a final title |
| FinalTabsFacts.ProvisionalLiteralFinal | 1.py:274-276 | every provisional literal normalises to a final title |
| FinalTabsFacts.ProvisionalLiteralProv | 1.py:274-276 | every provisional literal holds a provisional marker |
| FinalTabsFacts.ProvisionalLiteralsUnused | 1.py:259-276 | whenever a provisional literal is a title, the second tier has already filled the provisional slot |
| FinalTabsFacts.ProvisionalFromTitles | 1.py:259-276 | the provisional slot is always decided by the first two tiers |
| FinalTabsFacts.FinalWordIsFinal | 1.py:245 | any title containing the word "Final" is final |
| FinalTabsFacts.ApprovedWordIsProv | 1.py:241-253 | any title containing the word "Approved" holds the marker "prov" |
| FinalTabsFacts.ProvisionalInApprovedSlot | 1.py:259-272 | an approved slot holding a provisional-marked title came from the literal tier, after the second tier found nothing |
| FinalTabsFacts.EmptyClassMatchesAll | 1.py:237-246 | a class name that normalises to "" matches every title |
| Text.TrimLower | 1.py:174-177 | lower-then-strip equals strip-then-lower, so audit keys and config keys use one normal form |
| Locks.CanonIdempotent | 1.py:160-162 | the stripped, lower-cased columns are their own stripped, lower-cased form |
| Frames.RawCell | 1.py:102-112 | a column the sheet lacks reads ""; otherwise the cell is the record's entry at the first column called `name`, or None when the record is too short for it (the None padding of a sheet where some record reaches every header column) |
| Locks.PrepConfig | 1.py:154-163 | an empty sheet gives an empty frame that has a Course column; otherwise every record is kept in order, the raw cells are kept as read (None where the record is short, "" where the column is missing), the derived columns are the canonical forms of their `astype(str)` text, and a Course column exists only if the sheet has one |
| Locks.LockRule | 1.py:172-179 | a record is locked exactly when some audit record whose Action lower-cases to "locked" has the same stripped, lower-cased Course-and-Component key |
| Locks.KeyCollision | 1.py:178 | two records whose course codes differ, one of them holding the key separator, can get the same lock key, so an audit sheet locks both or neither |
| Locks.EmptyAuditNoKeys | 1.py:170-179 | an empty audit sheet locks nothing |
| Locks.LockedKeysGrow | 1.py:179 | adding an audit record never removes a locked key |
| Locks.ClassRows | 1.py:167-168 | the class's records are every record, duplicates included, whose canonical Class equals the lower-cased (unstripped) class name |
| Locks.CountLocked | 1.py:179 | the locked count is at most the record count, and equals it exactly when every record's key is locked |
| Locks.LockedRows | 1.py:179 | the records whose key is locked, each as often as it occurs |
| Locks.CountLockedExact | 1.py:179 | the locked count is the number of records, duplicates included, whose key is locked |
| Locks.AllComponentsLocked | 1.py:165-180 | total counts the class's records; with a non-empty audit, locked is the number of the class's records whose key is locked; 0 <= locked <= total; the flag holds iff locked == total > 0; an empty config or no class records gives (0,0,false); an empty audit gives (0,total,false) |
| Locks.AllLockedMeaning | 1.py:165-180 | the flag holds exactly when the class has records and every one is locked |
| Locks.LockedCountMonotone | 1.py:170-180 | adding an audit record never lowers the locked count |
| LockTable.Dedup | 1.py:209 | the de-duplicated rows are the same values, each once |
| LockTable.DedupKeepsFirst | 1.py:209 | the de-duplicated rows come in the order of their first occurrences |
| LockTable.SortRows | 1.py:210 | the sorted rows are a permutation ordered by (CourseCode, Component), strings by Python's `<` and None after every string, and distinct rows stay distinct |
| LockTable.PaddedCodesLast | 1.py:210 | rows whose CourseCode is None come after every row whose CourseCode is a string |
| LockTable.StatusTable | 1.py:207-211 | the table rows are exactly the projections of the class's records, without duplicates, in key order |
| LockTable.StatusRowSource | 1.py:208-211 | each table row comes from a record of the class and reads Locked exactly when that record's key is locked |
| LockTable.StatusRowShown | 1.py:209-211 | every record of the class appears in the table with its status |
| LockTable.StatusTableAllLocked | 1.py:208-211 | every row reads Locked, and there is a row, exactly when the class has records and all are locked |
| LockTable.PerCourseLockTable | 1.py:198-212 | no class records gives an empty table; a missing Course column with class records is the KeyError; otherwise the rows are distinct, sorted with None last, and exactly the projections (raw cells, None kept) of the class's records |
| LockTable.TableAgreesWithCounter | 1.py:198-212 | the table shows every row Locked, and is non-empty, exactly when the counter reports the class fully locked |
| Approvals.IsClassFinalApproved | 1.py:141-152 | an empty sheet approves nothing; otherwise approval holds iff a considered record has stripped cell 0 "ClassFinal" and stripped cell 1 equal to the class name; the first record is not considered under a "Scope" header |
| Approvals.AnyFromIff | 1.py:148-152 | the scan finds an approving record exactly when one exists at or after the start |
| Approvals.PaddedClassNeverApproved | 1.py:150 | a class name with whitespace at either end is never approved |
| Approvals.ScopeSkipsFirstRecord | 1.py:145 | under a "Scope" header an approving first record alone does not approve |
| Approvals.LoneScopedRecordIgnored | 1.py:145-152 | the single record (ClassFinal, Second Year) under a (Scope, Key) header does not approve "Second Year" |
| Approvals.ApprovingRecordCounts | 1.py:145-152 | without a "Scope" header any approving record approves |
| Slug.CleanIsSlug | 1.py:283-284 | the cleaned text has only letters, digits, '_' and '-', no "__", and no '_' at either end |
| Slug.CleanFixpoint | 1.py:283-284 | text already in that shape is left alone |
| Slug.CleanKeepsWordChars | 1.py:283-284 | cleaning keeps every letter, digit and '-' in order and adds none |
| Slug.MakeSlug | 1.py:281-285 | the slug is never empty and has the slug shape |
| Slug.SlugIdempotent | 1.py:281-285 | the slug of a slug is itself |
| Slug.SlugFallback | 1.py:285 | "export" is used when no letter, digit or '-' is given; otherwise the slug holds exactly the given ones, in order |
| Workbooks.ClassFolder | 1.py:345 | the first folder whose stripped, lower-cased name equals the stripped, lower-cased class name, or none |
| Workbooks.ChooseWorkbook | 1.py:349-354 | none exactly when there is no spreadsheet; otherwise a position in the listing: the first "_marks" one when any exists, else the first |

## Left out

- Network and platform: Google authentication, the Drive and Sheets calls (`load_tab`, `get_sheet_id_map`, `list_child_folders`, `list_class_spreadsheets`), settings loading and the Streamlit caching and user interface. Their results are parameters here.
- `_df_from_values`: the model takes a sheet as a header and records in which some record reaches every header column, so that pandas pads the shorter records with None. Three other shapes go through the constructor's exception fallback instead, and the model does not follow them:
  - no record reaches the last header columns: the frame is built without those columns, so the code backfills them with "" (Class, CourseCode, Component, Action), raises KeyError (Course) or can raise IndexError (`iloc[:, 1]` in `is_class_final_approved`), where the model reads None and shows it as "None";
  - a record longer than a non-empty header: assigning the shorter header to the wider frame raises a length mismatch, so the sheet does not load at all, where the model reads each record by header position and never looks at the extra cells;
  - an empty header with non-empty records: pandas numbers the columns 0, 1, … and the frame is not empty, where the model treats a sheet without header columns as empty.
- Duplicate column names: the code fails on them (with two Class columns, `c["Class"]` is a DataFrame and `.str` raises AttributeError). The model does not model that failure: a name refers to its first column.
- `get_class_cutoff_display`: date parsing and time-zone formatting by library calls.
- `df_to_excel_bytes` and `df_to_csv_bytes`: library serialisation.
- Completion percentages and averages: floating point.
- Unicode: `lower`, `\w` and `[a-z0-9]` are modelled on ASCII letters and digits only. `strip` and `split` use Python's full whitespace set. Characters such as U+212A, whose lower-case form is ASCII, are not lower-cased.
- SortRows: stability of the sort (ties on (CourseCode, Component) keep their first-seen order) is what the model computes but is not stated as a proved property.
- The caller loop that applies the workbook choice and the counters to each selected class only assembles display rows.

=== FILE: approvals.dfy ===
/** `is_class_final_approved`, on the `_Approvals` sheet once it is loaded. */
module Approvals {
  import opened Text
  import opened Frames

  const ScopeHeader := "Scope"
  const ClassFinalScope := "ClassFinal"

  /** Where the considered records start: when the first column is headed
      "Scope", the first record is skipped as well. */
  function FirstConsidered(ap: Table): nat
    requires |ap.header| > 0
  {
    if ap.header[0] == ScopeHeader then 1 else 0
  }

  /** A record approving `klass`: its first cell, stripped, is "ClassFinal"
      and its second cell, stripped, is exactly `klass` (which is itself not
      stripped, and compared with case). */
  predicate Approves(row: seq<string>, klass: string) {
    Trim(At(row, 0)) == ClassFinalScope && Trim(At(row, 1)) == klass
  }

  /** Some record from index `from` on satisfies `p`. */
  predicate AnyFrom(rows: seq<seq<string>>, from: nat, p: seq<string> -> bool)
    decreases |rows| - from
  {
    from < |rows| && (p(rows[from]) || AnyFrom(rows, from + 1, p))
  }

  lemma {:induction false} AnyFromIff(rows: seq<seq<string>>, from: nat, p: seq<string> -> bool)
    ensures AnyFrom(rows, from, p) <==> exists i :: from <= i < |rows| && p(rows[i])
    decreases |rows| - from
  {
    if from < |rows| {
      AnyFromIff(rows, from + 1, p);
    }
  }

  /** `is_class_final_approved`. The sheet needs at least two columns unless
      it is empty: the code reads the second column by position. */
  function IsClassFinalApproved(ap: Table, klass: string): (r: bool)
    requires Empty(ap) || |ap.header| >= 2
    ensures Empty(ap) ==> !r
    ensures r <==> (!Empty(ap)
      && exists i :: FirstConsidered(ap) <= i < |ap.rows| && Approves(ap.rows[i], klass))
  {
    var p := row => Approves(row, klass);
    AnyFromIff(ap.rows, if Empty(ap) then 0 else FirstConsidered(ap), p);
    !Empty(ap) && AnyFrom(ap.rows, FirstConsidered(ap), p)
  }

  /** A class name with whitespace at either end is never approved: the cell
      is stripped but the name is not. */
  lemma PaddedClassNeverApproved(ap: Table, klass: string)
    requires Empty(ap) || |ap.header| >= 2
    requires klass != [] && (IsSpace(klass[0]) || IsSpace(klass[|klass| - 1]))
    ensures !IsClassFinalApproved(ap, klass)
  {
  }

  /** Under a "Scope" header the first record never counts, even when it is
      the only approving one. */
  lemma ScopeSkipsFirstRecord(ap: Table, klass: string)
    requires |ap.header| >= 2 && ap.header[0] == ScopeHeader && |ap.rows| > 0
    requires forall i :: 1 <= i < |ap.rows| ==> !Approves(ap.rows[i], klass)
    ensures !IsClassFinalApproved(ap, klass)
  {
  }

  /** A sheet headed (Scope, Key) whose only record approves "Second Year"
      does not approve it: that record is the one skipped. */
  lemma LoneScopedRecordIgnored()
    ensures !IsClassFinalApproved(Table(["Scope", "Key"], [["ClassFinal", "Second Year"]]), "Second Year")
  {
    ScopeSkipsFirstRecord(Table(["Scope", "Key"], [["ClassFinal", "Second Year"]]), "Second Year");
  }

  /** Without a "Scope" header every record counts. */
  lemma ApprovingRecordCounts(ap: Table, klass: string, i: nat)
    requires |ap.header| >= 2 && ap.header[0] != ScopeHeader
    requires i < |ap.rows| && Approves(ap.rows[i], klass)
    ensures IsClassFinalApproved(ap, klass)
  {
  }
}

=== FILE: final_tabs.dfy ===
/** Locating the "approved" and "provisional" class-final tabs of a workbook
    (`find_final_tabs`). The workbook's tab titles are given in list order;
    fetching them is not part of this model. */
module FinalTabs {
  import opened Text
  import opened Normalize

  /** The normalised title mentions "final". */
  predicate IsFinal(nt: string) {
    Contains(nt, "final")
  }

  /** The normalised title holds one of the provisional markers as a substring. */
  predicate IsProv(nt: string) {
    Contains(nt, "provisional") || Contains(nt, "preview") || Contains(nt, "draft") || Contains(nt, "prov")
  }

  /** The class test of the first tier, on precomputed class data: some
      normalised variant of the class name occurs in the normalised title, or
      every word of the normalised class name is a word of it. */
  predicate MatchesClassBy(nt: string, variants: set<string>, classTokens: set<string>) {
    (exists v :: v in variants && Contains(nt, v)) || classTokens <= Tokens(nt)
  }

  predicate MatchesClass(nt: string, klass: string) {
    MatchesClassBy(nt, NormalizedVariants(klass), Tokens(Norm(klass)))
  }

  /** A tab title together with its normalised form. */
  datatype Tab = Tab(title: string, norm: string)

  /** The table of normalised titles, in list order. */
  function Tabs(titles: seq<string>): (r: seq<Tab>)
    ensures |r| == |titles|
    ensures forall i :: 0 <= i < |titles| ==> r[i] == Tab(titles[i], Norm(titles[i]))
  {
    seq(|titles|, i requires 0 <= i < |titles| => Tab(titles[i], Norm(titles[i])))
  }

  /** Whether a tab fits a slot: it is a final tab and its provisional
      marking equals `prov`. */
  predicate Fits(tab: Tab, prov: bool) {
    IsFinal(tab.norm) && IsProv(tab.norm) == prov
  }

  function SlotFit(prov: bool): Tab -> bool {
    tab => Fits(tab, prov)
  }

  /** The strict test: the tab fits the slot and names the class. */
  predicate FitsClass(tab: Tab, klass: string, prov: bool) {
    Fits(tab, prov) && MatchesClass(tab.norm, klass)
  }

  function ClassFit(klass: string, prov: bool): Tab -> bool {
    tab => FitsClass(tab, klass, prov)
  }

  /** A tab of the first tier: a final tab that names the class, on
      precomputed class data. */
  predicate IsCandidate(tab: Tab, variants: set<string>, classTokens: set<string>) {
    IsFinal(tab.norm) && MatchesClassBy(tab.norm, variants, classTokens)
  }

  function CandidateBy(variants: set<string>, classTokens: set<string>): Tab -> bool {
    tab => IsCandidate(tab, variants, classTokens)
  }

  function Candidate(klass: string): Tab -> bool {
    CandidateBy(NormalizedVariants(klass), Tokens(Norm(klass)))
  }

  /** A final tab always has a non-empty title. */
  predicate Titled(tabs: seq<Tab>) {
    forall i :: 0 <= i < |tabs| && IsFinal(tabs[i].norm) ==> tabs[i].title != ""
  }

  lemma EmptyNotFinal()
    ensures !IsFinal("")
  {
    if IsFinal("") {
      var i := ContainsWitness("", "final");
    }
  }

  lemma TabsTitled(titles: seq<string>)
    ensures Titled(Tabs(titles))
  {
    EmptyNotFinal();
    assert Norm("") == "";
  }

  // ---------------------------------------------------------------------
  // First match and selection over a list
  // ---------------------------------------------------------------------

  /** The elements satisfying `q`, in order. */
  function Select<T>(s: seq<T>, q: T -> bool): (r: seq<T>)
    ensures forall x :: x in r ==> x in s && q(x)
    decreases |s|
  {
    if s == [] then []
    else Select(s[..|s| - 1], q) + (if q(s[|s| - 1]) then [s[|s| - 1]] else [])
  }

  lemma SelectSnoc<T>(s: seq<T>, x: T, q: T -> bool)
    ensures Select(s + [x], q) == Select(s, q) + (if q(x) then [x] else [])
  {
    assert (s + [x])[..|s|] == s;
  }

  /** The title of the first tab satisfying `p`, or "" when there is none. */
  function Pick(tabs: seq<Tab>, p: Tab -> bool): string {
    var i := FirstIndex(tabs, p);
    if i < |tabs| then tabs[i].title else ""
  }

  /** On titled tabs, and for a test only final tabs pass, "" means that no tab passed. */
  lemma PickFound(tabs: seq<Tab>, p: Tab -> bool)
    requires Titled(tabs) && forall x :: p(x) ==> IsFinal(x.norm)
    ensures Pick(tabs, p) != "" <==> FirstIndex(tabs, p) < |tabs|
  {
  }

  lemma PickSnoc(tabs: seq<Tab>, x: Tab, p: Tab -> bool)
    requires Titled(tabs + [x]) && forall y :: p(y) ==> IsFinal(y.norm)
    ensures Pick(tabs + [x], p) == (var f := Pick(tabs, p); if f != "" then f else if p(x) then x.title else "")
  {
    assert forall j :: 0 <= j < |tabs| ==> (tabs + [x])[j] == tabs[j];
    assert Titled(tabs);
    PickFound(tabs, p);
    FirstIndexSnoc(tabs, x, p);
  }

  /** Searching the selected tabs with `p` is searching all of them with
      `p2`, when `p2` is `p` restricted to selected tabs. */
  lemma {:induction false} PickOfSelect(tabs: seq<Tab>, q: Tab -> bool, p: Tab -> bool, p2: Tab -> bool)
    requires Titled(tabs) && (forall x :: p(x) ==> IsFinal(x.norm)) && (forall x :: p2(x) ==> IsFinal(x.norm))
    requires forall x :: p2(x) <==> q(x) && p(x)
    ensures Titled(Select(tabs, q))
    ensures Pick(Select(tabs, q), p) == Pick(tabs, p2)
    decreases |tabs|
  {
    var sel := Select(tabs, q);
    forall i | 0 <= i < |sel| && IsFinal(sel[i].norm) ensures sel[i].title != "" {
      assert sel[i] in tabs;
    }
    if tabs != [] {
      var init, last := tabs[..|tabs| - 1], tabs[|tabs| - 1];
      assert tabs == init + [last];
      assert Titled(init) by {
        assert forall j :: 0 <= j < |init| ==> init[j] == tabs[j];
      }
      PickOfSelect(init, q, p, p2);
      SelectSnoc(init, last, q);
      PickSnoc(init, last, p2);
      if q(last) {
        PickSnoc(Select(init, q), last, p);
      } else {
        assert !p2(last);
        assert sel == Select(init, q);
      }
    }
  }

  // ---------------------------------------------------------------------
  // The three tiers, as definitions
  // ---------------------------------------------------------------------

  /** The exact literal titles of the third tier for the approved slot, in the order tried. */
  function ApprovedLiterals(klass: string): seq<string> {
    [klass + "__Final", klass + " Final", "Final " + klass, "Class Final - " + klass, klass + " - Class Final"]
  }

  /** The exact literal titles of the third tier for the provisional slot, in the order tried. */
  function ProvisionalLiterals(klass: string): seq<string> {
    [klass + "__Final (Provisional)", klass + "__Final_Provisional", klass + " Final (Provisional)"]
  }

  function InList(titles: seq<string>): string -> bool {
    t => t in titles
  }

  /** The first literal that is exactly one of the titles, or "" when none is. */
  function FirstLiteral(lits: seq<string>, titles: seq<string>): string {
    var i := FirstIndex(lits, InList(titles));
    if i < |lits| then lits[i] else ""
  }

  /** The approved tab: the first final, non-provisional title that names the
      class; failing that the first final, non-provisional title; failing
      that the first approved literal that is a title; otherwise "". */
  function ApprovedTab(titles: seq<string>, klass: string): string {
    var tabs := Tabs(titles);
    var strict := Pick(tabs, ClassFit(klass, false));
    if strict != "" then strict
    else
      var relaxed := Pick(tabs, SlotFit(false));
      if relaxed != "" then relaxed else FirstLiteral(ApprovedLiterals(klass), titles)
  }

  /** The provisional tab, chosen the same way among provisional titles. */
  function ProvisionalTab(titles: seq<string>, klass: string): string {
    var tabs := Tabs(titles);
    var strict := Pick(tabs, ClassFit(klass, true));
    if strict != "" then strict
    else
      var relaxed := Pick(tabs, SlotFit(true));
      if relaxed != "" then relaxed else FirstLiteral(ProvisionalLiterals(klass), titles)
  }

  /** The first tier searches the candidates with the relaxed test, which is
      the strict test over all tabs. */
  lemma CandidatesPick(tabs: seq<Tab>, klass: string, prov: bool)
    requires Titled(tabs)
    ensures Titled(Select(tabs, Candidate(klass)))
    ensures Pick(Select(tabs, Candidate(klass)), SlotFit(prov)) == Pick(tabs, ClassFit(klass, prov))
  {
    PickOfSelect(tabs, Candidate(klass), SlotFit(prov), ClassFit(klass, prov));
  }

  /** Every candidate is a final tab. */
  lemma CandidatesFinal(tabs: seq<Tab>, klass: string)
    ensures forall i :: 0 <= i < |Select(tabs, Candidate(klass))| ==> IsFinal(Select(tabs, Candidate(klass))[i].norm)
  {
    var sel := Select(tabs, Candidate(klass));
    forall i | 0 <= i < |sel| ensures IsFinal(sel[i].norm) {
      assert sel[i] in sel;
    }
  }

  /** The literal search stops at the first literal that is a title. */
  lemma FirstLiteralAt(lits: seq<string>, titles: seq<string>, m: nat)
    requires m <= |lits| && forall j :: 0 <= j < m ==> lits[j] !in titles
    requires m < |lits| ==> lits[m] in titles
    ensures FirstLiteral(lits, titles) == if m < |lits| then lits[m] else ""
  {
    FirstIndexUnique(lits, InList(titles), m);
  }

  // ---------------------------------------------------------------------
  // The search itself
  // ---------------------------------------------------------------------

  /** The first pass of `find_final_tabs`: the class-matching final tabs, in
      list order, with the class data computed once before the walk. */
  method CollectCandidates(tabs: seq<Tab>, klass: string) returns (candidates: seq<Tab>)
    ensures candidates == Select(tabs, Candidate(klass))
  {
    var variants := NormalizedVariants(klass);
    var classTokens := Tokens(Norm(klass));
    candidates := CandidateWalk(tabs, variants, classTokens);
  }

  /** The walk of the first pass over precomputed class data. */
  method CandidateWalk(tabs: seq<Tab>, variants: set<string>, classTokens: set<string>) returns (candidates: seq<Tab>)
    ensures candidates == Select(tabs, CandidateBy(variants, classTokens))
  {
    candidates := [];
    var i := 0;
    while i < |tabs|
      invariant 0 <= i <= |tabs|
      invariant candidates == Select(tabs[..i], CandidateBy(variants, classTokens))
    {
      var tab := tabs[i];
      SelectSnoc(tabs[..i], tab, CandidateBy(variants, classTokens));
      assert tabs[..i + 1] == tabs[..i] + [tab];
      if IsFinal(tab.norm) {
        if MatchesClassBy(tab.norm, variants, classTokens) {
          candidates := candidates + [tab];
        }
      }
      i := i + 1;
    }
    assert tabs[..i] == tabs;
  }

  /** One tier of `find_final_tabs`: walk `tabs` in order and put each final
      title into its slot when that slot is still empty, stopping once both
      slots are filled. With `checkFinal` false the walk trusts that every
      tab is final, as the first tier does for its candidates. */
  method FillSlots(tabs: seq<Tab>, checkFinal: bool, approved0: string, provisional0: string)
    returns (approved: string, provisional: string)
    requires Titled(tabs)
    requires !checkFinal ==> forall i :: 0 <= i < |tabs| ==> IsFinal(tabs[i].norm)
    ensures approved == if approved0 != "" then approved0 else Pick(tabs, SlotFit(false))
    ensures provisional == if provisional0 != "" then provisional0 else Pick(tabs, SlotFit(true))
  {
    approved, provisional := approved0, provisional0;
    var k := 0;
    while k < |tabs|
      invariant 0 <= k <= |tabs|
      invariant approved == if approved0 != "" then approved0 else Pick(tabs[..k], SlotFit(false))
      invariant provisional == if provisional0 != "" then provisional0 else Pick(tabs[..k], SlotFit(true))
    {
      var tab := tabs[k];
      FillStep(tabs, k);
      if !checkFinal || IsFinal(tab.norm) {
        if IsProv(tab.norm) {
          if provisional == "" {
            provisional := tab.title;
          }
        } else {
          if approved == "" {
            approved := tab.title;
          }
        }
      }
      k := k + 1;
      if approved != "" && provisional != "" {
        break;
      }
    }
    FillExit(tabs, k, approved0, provisional0, approved, provisional);
  }

  /** How the tab at index `k` extends the first matches of the tabs before it. */
  lemma FillStep(tabs: seq<Tab>, k: nat)
    requires k < |tabs| && Titled(tabs)
    ensures Pick(tabs[..k + 1], SlotFit(false))
         == (var f := Pick(tabs[..k], SlotFit(false));
             if f != "" then f else if IsFinal(tabs[k].norm) && !IsProv(tabs[k].norm) then tabs[k].title else "")
    ensures Pick(tabs[..k + 1], SlotFit(true))
         == (var f := Pick(tabs[..k], SlotFit(true));
             if f != "" then f else if IsFinal(tabs[k].norm) && IsProv(tabs[k].norm) then tabs[k].title else "")
  {
    assert tabs[..k + 1] == tabs[..k] + [tabs[k]];
    assert Titled(tabs[..k + 1]) by {
      assert forall j :: 0 <= j < k + 1 ==> tabs[..k + 1][j] == tabs[j];
    }
    PickSnoc(tabs[..k], tabs[k], SlotFit(false));
    PickSnoc(tabs[..k], tabs[k], SlotFit(true));
  }

  /** Where a tier stops early, both slots are filled and the rest of the
      tabs cannot change them. */
  lemma FillExit(tabs: seq<Tab>, k: nat, approved0: string, provisional0: string,
                 approved: string, provisional: string)
    requires Titled(tabs)
    requires k <= |tabs| && (k < |tabs| ==> approved != "" && provisional != "")
    requires approved == if approved0 != "" then approved0 else Pick(tabs[..k], SlotFit(false))
    requires provisional == if provisional0 != "" then provisional0 else Pick(tabs[..k], SlotFit(true))
    ensures approved == if approved0 != "" then approved0 else Pick(tabs, SlotFit(false))
    ensures provisional == if provisional0 != "" then provisional0 else Pick(tabs, SlotFit(true))
  {
    if k < |tabs| {
      assert Titled(tabs[..k]) by {
        assert forall j :: 0 <= j < k ==> tabs[..k][j] == tabs[j];
      }
      if approved0 == "" {
        PickFound(tabs[..k], SlotFit(false));
        FirstIndexPrefix(tabs, k, SlotFit(false));
      }
      if provisional0 == "" {
        PickFound(tabs[..k], SlotFit(true));
        FirstIndexPrefix(tabs, k, SlotFit(true));
      }
    } else {
      assert tabs[..k] == tabs;
    }
  }

  /** The literal tier: the first literal that is exactly one of the titles. */
  method FirstPresent(lits: seq<string>, titles: seq<string>) returns (found: string)
    ensures found == FirstLiteral(lits, titles)
  {
    found := "";
    var m := 0;
    while m < |lits|
      invariant 0 <= m <= |lits|
      invariant forall j :: 0 <= j < m ==> lits[j] !in titles
    {
      if lits[m] in titles {
        found := lits[m];
        break;
      }
      m := m + 1;
    }
    FirstLiteralAt(lits, titles, m);
  }

  /** `find_final_tabs`: the class-matching final titles form the first tier,
      every title the second, a slot still empty after them is looked up
      among fixed literal titles, and each tier only fills empty slots. */
  method FindFinalTabs(titles: seq<string>, klass: string) returns (approved: string, provisional: string)
    ensures approved == ApprovedTab(titles, klass)
    ensures provisional == ProvisionalTab(titles, klass)
  {
    if |titles| == 0 {
      FirstLiteralAt(ApprovedLiterals(klass), titles, |ApprovedLiterals(klass)|);
      FirstLiteralAt(ProvisionalLiterals(klass), titles, |ProvisionalLiterals(klass)|);
      return "", "";
    }
    var tabs := Tabs(titles);
    TabsTitled(titles);
    var candidates := CollectCandidates(tabs, klass);
    CandidatesPick(tabs, klass, false);
    CandidatesPick(tabs, klass, true);
    CandidatesFinal(tabs, klass);
    approved, provisional := FillSlots(candidates, false, "", "");
    if approved == "" || provisional == "" {
      approved, provisional := FillSlots(tabs, true, approved, provisional);
    }
    if approved == "" {
      approved := FirstPresent(ApprovedLiterals(klass), titles);
    }
    if provisional == "" {
      provisional := FirstPresent(ProvisionalLiterals(klass), titles);
    }
  }
}

=== FILE: final_tabs_facts.dfy ===
/** What the final-tab search promises: where its answers come from, what
    they look like, and which tier wins. */
module FinalTabsFacts {
  import opened Text
  import opened Normalize
  import opened FinalTabs

  /** The tab chosen for a slot. */
  function SlotTab(titles: seq<string>, klass: string, prov: bool): string {
    if prov then ProvisionalTab(titles, klass) else ApprovedTab(titles, klass)
  }

  function Literals(klass: string, prov: bool): seq<string> {
    if prov then ProvisionalLiterals(klass) else ApprovedLiterals(klass)
  }

  lemma LowerFinal()
    ensures Lower("Final") == "final"
  {
  }

  lemma LowerProvisional()
    ensures Lower("Provisional") == "provisional"
  {
  }

  /** A title with the word "Final" in it is a final title. */
  lemma FinalWordIsFinal(x: string, y: string)
    ensures IsFinal(Norm(x + "Final" + y))
  {
    LowerFinal();
    assert All("Final", IsAsciiAlnum);
    NormKeepsWord(x, "Final", y);
  }

  /** A title with the word "Provisional" in it is marked provisional. */
  lemma ProvisionalWordIsProv(x: string, y: string)
    ensures IsProv(Norm(x + "Provisional" + y))
  {
    LowerProvisional();
    assert All("Provisional", IsAsciiAlnum);
    NormKeepsWord(x, "Provisional", y);
  }

  /** Each approved literal of the third tier is a final title. */
  lemma ApprovedLiteralFinal(klass: string, i: nat)
    requires i < |ApprovedLiterals(klass)|
    ensures IsFinal(Norm(ApprovedLiterals(klass)[i]))
  {
    var lit := ApprovedLiterals(klass)[i];
    if i == 0 {
      assert lit == (klass + "__") + "Final" + "";
      FinalWordIsFinal(klass + "__", "");
    } else if i == 1 {
      assert lit == (klass + " ") + "Final" + "";
      FinalWordIsFinal(klass + " ", "");
    } else if i == 2 {
      assert lit == "" + "Final" + (" " + klass);
      FinalWordIsFinal("", " " + klass);
    } else if i == 3 {
      assert lit == "Class " + "Final" + (" - " + klass);
      FinalWordIsFinal("Class ", " - " + klass);
    } else {
      assert lit == (klass + " - Class ") + "Final" + "";
      FinalWordIsFinal(klass + " - Class ", "");
    }
  }

  /** Each provisional literal of the third tier is a final title. */
  lemma ProvisionalLiteralFinal(klass: string, i: nat)
    requires i < |ProvisionalLiterals(klass)|
    ensures IsFinal(Norm(ProvisionalLiterals(klass)[i]))
  {
    var lit := ProvisionalLiterals(klass)[i];
    if i == 0 {
      assert lit == (klass + "__") + "Final" + " (Provisional)";
      FinalWordIsFinal(klass + "__", " (Provisional)");
    } else if i == 1 {
      assert lit == (klass + "__") + "Final" + "_Provisional";
      FinalWordIsFinal(klass + "__", "_Provisional");
    } else {
      assert lit == (klass + " ") + "Final" + " (Provisional)";
      FinalWordIsFinal(klass + " ", " (Provisional)");
    }
  }

  /** Each provisional literal of the third tier is marked provisional. */
  lemma ProvisionalLiteralProv(klass: string, i: nat)
    requires i < |ProvisionalLiterals(klass)|
    ensures IsProv(Norm(ProvisionalLiterals(klass)[i]))
  {
    var lit := ProvisionalLiterals(klass)[i];
    if i == 0 {
      assert lit == (klass + "__Final (") + "Provisional" + ")";
      ProvisionalWordIsProv(klass + "__Final (", ")");
    } else if i == 1 {
      assert lit == (klass + "__Final_") + "Provisional" + "";
      ProvisionalWordIsProv(klass + "__Final_", "");
    } else {
      assert lit == (klass + " Final (") + "Provisional" + ")";
      ProvisionalWordIsProv(klass + " Final (", ")");
    }
  }

  /** A tab that Pick returns, with its index. */
  lemma PickIndex(tabs: seq<Tab>, p: Tab -> bool) returns (i: nat)
    requires Pick(tabs, p) != ""
    ensures i < |tabs| && tabs[i].title == Pick(tabs, p) && p(tabs[i])
  {
    i := FirstIndex(tabs, p);
  }

  /** A literal that FirstLiteral returns, with its index. */
  lemma LiteralIndex(lits: seq<string>, titles: seq<string>) returns (i: nat)
    requires FirstLiteral(lits, titles) != ""
    ensures i < |lits| && lits[i] == FirstLiteral(lits, titles) && lits[i] in titles
  {
    i := FirstIndex(lits, InList(titles));
    assert InList(titles)(lits[i]);
  }

  /** Each slot holds "" or one of the titles. */
  lemma SlotIsTitle(titles: seq<string>, klass: string, prov: bool)
    ensures SlotTab(titles, klass, prov) == "" || SlotTab(titles, klass, prov) in titles
  {
    var tabs := Tabs(titles);
    var strict := Pick(tabs, ClassFit(klass, prov));
    var relaxed := Pick(tabs, SlotFit(prov));
    if strict != "" {
      var i := PickIndex(tabs, ClassFit(klass, prov));
      assert tabs[i].title == titles[i];
    } else if relaxed != "" {
      var i := PickIndex(tabs, SlotFit(prov));
      assert tabs[i].title == titles[i];
    } else if FirstLiteral(Literals(klass, prov), titles) != "" {
      var i := LiteralIndex(Literals(klass, prov), titles);
    }
  }

  /** A filled slot holds a final title; a filled provisional slot holds one
      marked provisional. */
  lemma SlotIsFinal(titles: seq<string>, klass: string, prov: bool)
    ensures SlotTab(titles, klass, prov) != "" ==> IsFinal(Norm(SlotTab(titles, klass, prov)))
    ensures prov && SlotTab(titles, klass, prov) != "" ==> IsProv(Norm(SlotTab(titles, klass, prov)))
  {
    var tabs := Tabs(titles);
    var strict := Pick(tabs, ClassFit(klass, prov));
    var relaxed := Pick(tabs, SlotFit(prov));
    if strict != "" {
      var i := PickIndex(tabs, ClassFit(klass, prov));
      assert tabs[i] == Tab(titles[i], Norm(titles[i]));
    } else if relaxed != "" {
      var i := PickIndex(tabs, SlotFit(prov));
      assert tabs[i] == Tab(titles[i], Norm(titles[i]));
    } else if FirstLiteral(Literals(klass, prov), titles) != "" {
      var i := LiteralIndex(Literals(klass, prov), titles);
      if prov {
        ProvisionalLiteralFinal(klass, i);
        ProvisionalLiteralProv(klass, i);
      } else {
        ApprovedLiteralFinal(klass, i);
      }
    }
  }

  /** With no final title (in particular with no titles at all) both slots stay empty. */
  lemma NoFinalNoTabs(titles: seq<string>, klass: string)
    requires forall i :: 0 <= i < |titles| ==> !IsFinal(Norm(titles[i]))
    ensures ApprovedTab(titles, klass) == "" && ProvisionalTab(titles, klass) == ""
  {
    SlotIsTitle(titles, klass, false);
    SlotIsFinal(titles, klass, false);
    SlotIsTitle(titles, klass, true);
    SlotIsFinal(titles, klass, true);
  }

  /** First tier wins: the earliest final title with the slot's provisional
      marking that also names the class fills the slot, whatever follows. */
  lemma ClassTitleWins(titles: seq<string>, klass: string, prov: bool, i: nat)
    requires i < |titles|
    requires IsFinal(Norm(titles[i])) && IsProv(Norm(titles[i])) == prov && MatchesClass(Norm(titles[i]), klass)
    requires forall j :: 0 <= j < i ==>
      !(IsFinal(Norm(titles[j])) && IsProv(Norm(titles[j])) == prov && MatchesClass(Norm(titles[j]), klass))
    ensures SlotTab(titles, klass, prov) == titles[i]
  {
    var tabs := Tabs(titles);
    forall j | 0 <= j < i ensures !ClassFit(klass, prov)(tabs[j]) {
      assert tabs[j] == Tab(titles[j], Norm(titles[j]));
    }
    assert tabs[i] == Tab(titles[i], Norm(titles[i]));
    FirstIndexUnique(tabs, ClassFit(klass, prov), i);
    TabsTitled(titles);
    assert Pick(tabs, ClassFit(klass, prov)) == titles[i] != "";
    if prov {
      assert ProvisionalTab(titles, klass) == Pick(tabs, ClassFit(klass, true));
    } else {
      assert ApprovedTab(titles, klass) == Pick(tabs, ClassFit(klass, false));
    }
  }

  /** Second tier: when no final title names the class, the earliest final
      title with the slot's provisional marking fills the slot. */
  lemma FinalTitleWins(titles: seq<string>, klass: string, prov: bool, i: nat)
    requires forall j :: 0 <= j < |titles| ==>
      !(IsFinal(Norm(titles[j])) && IsProv(Norm(titles[j])) == prov && MatchesClass(Norm(titles[j]), klass))
    requires i < |titles| && IsFinal(Norm(titles[i])) && IsProv(Norm(titles[i])) == prov
    requires forall j :: 0 <= j < i ==> !(IsFinal(Norm(titles[j])) && IsProv(Norm(titles[j])) == prov)
    ensures SlotTab(titles, klass, prov) == titles[i]
  {
    var tabs := Tabs(titles);
    forall j | 0 <= j < |tabs| ensures !ClassFit(klass, prov)(tabs[j]) {
      assert tabs[j] == Tab(titles[j], Norm(titles[j]));
    }
    forall j | 0 <= j < i ensures !SlotFit(prov)(tabs[j]) {
      assert tabs[j] == Tab(titles[j], Norm(titles[j]));
    }
    assert tabs[i] == Tab(titles[i], Norm(titles[i]));
    FirstIndexUnique(tabs, ClassFit(klass, prov), |tabs|);
    FirstIndexUnique(tabs, SlotFit(prov), i);
    TabsTitled(titles);
  }

  /** Third tier: when no title is final with the slot's provisional
      marking, the slot is the first literal, in the fixed order, that is
      exactly one of the titles. */
  lemma LiteralWins(titles: seq<string>, klass: string, prov: bool)
    requires forall j :: 0 <= j < |titles| ==> !(IsFinal(Norm(titles[j])) && IsProv(Norm(titles[j])) == prov)
    ensures SlotTab(titles, klass, prov) == FirstLiteral(Literals(klass, prov), titles)
  {
    var tabs := Tabs(titles);
    forall j | 0 <= j < |tabs| ensures !SlotFit(prov)(tabs[j]) && !ClassFit(klass, prov)(tabs[j]) {
      assert tabs[j] == Tab(titles[j], Norm(titles[j]));
    }
    FirstIndexUnique(tabs, ClassFit(klass, prov), |tabs|);
    FirstIndexUnique(tabs, SlotFit(prov), |tabs|);
  }

  /** The provisional literals are never used: each is a final, provisional
      title, so when one is present the second tier has already filled the slot. */
  lemma ProvisionalLiteralsUnused(titles: seq<string>, klass: string)
    ensures FirstLiteral(ProvisionalLiterals(klass), titles) != "" ==> Pick(Tabs(titles), SlotFit(true)) != ""
  {
    var tabs := Tabs(titles);
    if FirstLiteral(ProvisionalLiterals(klass), titles) != "" {
      var i := LiteralIndex(ProvisionalLiterals(klass), titles);
      var lit := ProvisionalLiterals(klass)[i];
      ProvisionalLiteralFinal(klass, i);
      ProvisionalLiteralProv(klass, i);
      var m :| 0 <= m < |titles| && titles[m] == lit;
      assert tabs[m] == Tab(lit, Norm(lit));
      assert SlotFit(true)(tabs[m]);
      TabsTitled(titles);
      PickFound(tabs, SlotFit(true));
    }
  }

  /** So the provisional slot is always a title chosen by the first or second tier. */
  lemma ProvisionalFromTitles(titles: seq<string>, klass: string)
    ensures ProvisionalTab(titles, klass)
         == (var strict := Pick(Tabs(titles), ClassFit(klass, true));
             if strict != "" then strict else Pick(Tabs(titles), SlotFit(true)))
  {
    ProvisionalLiteralsUnused(titles, klass);
  }

  lemma LowerApproved()
    ensures Lower("Approved") == "approved"
  {
  }

  lemma ApprovedHoldsProv()
    ensures Contains("approved", "prov")
  {
    assert "approved"[2..2 + 4] == "prov";
    ContainsAt("approved", "prov", 2);
  }

  /** The word "Approved" in a title marks it provisional, since "approved"
      holds the substring "prov". */
  lemma ApprovedWordIsProv(x: string, y: string)
    ensures IsProv(Norm(x + "Approved" + y))
  {
    LowerApproved();
    assert All("Approved", IsAsciiAlnum);
    NormKeepsWord(x, "Approved", y);
    ApprovedHoldsProv();
    ContainsTransitive(Norm(x + "Approved" + y), "approved", "prov");
  }

  /** The approved slot holds a title marked provisional only when it comes
      from the literal tier, after both title tiers found nothing. */
  lemma ProvisionalInApprovedSlot(titles: seq<string>, klass: string)
    requires ApprovedTab(titles, klass) != "" && IsProv(Norm(ApprovedTab(titles, klass)))
    ensures ApprovedTab(titles, klass) in ApprovedLiterals(klass)
    ensures Pick(Tabs(titles), SlotFit(false)) == ""
  {
    var tabs := Tabs(titles);
    var strict := Pick(tabs, ClassFit(klass, false));
    var relaxed := Pick(tabs, SlotFit(false));
    if strict != "" {
      var i := PickIndex(tabs, ClassFit(klass, false));
      assert false;
    } else if relaxed != "" {
      var i := PickIndex(tabs, SlotFit(false));
      assert false;
    } else {
      var i := LiteralIndex(ApprovedLiterals(klass), titles);
    }
  }

  /** An empty class name has no words, and the empty word set is a subset of
      every title's words, so every title names the empty class. */
  lemma EmptyClassMatchesAll(nt: string, klass: string)
    requires Norm(klass) == ""
    ensures MatchesClass(nt, klass)
  {
    assert Split("") == [];
    assert Tokens(Norm(klass)) == {};
  }
}

=== FILE: frames.dfy ===
/** Loaded sheets as tables of strings, read the way the pandas code reads
    them. */
module Frames {
  import opened Text

  /** A loaded sheet: the header row names the columns, the other rows are the
      records. */
  datatype Table = Table(header: seq<string>, rows: seq<seq<string>>)

  /** `DataFrame.empty`: no records or no columns. */
  predicate Empty(t: Table) {
    |t.header| == 0 || |t.rows| == 0
  }

  /** A cell as pandas holds it: the string the sheet sent, or the None that
      pads a record shorter than the header. */
  datatype Value = Str(text: string) | NoValue

  /** What `astype(str)` shows for the padding None. */
  const Padding := "None"

  /** `astype(str)` */
  function Shown(v: Value): (r: string)
    ensures v.Str? ==> r == v.text
    ensures v.NoValue? ==> r == Padding
  {
    match v
    case Str(t) => t
    case NoValue => Padding
  }

  /** Position of the first column called `name`. */
  function ColumnIndex(header: seq<string>, name: string): (r: Option<nat>)
    ensures r.None? <==> name !in header
    ensures r.Some? ==> r.value < |header| && header[r.value] == name
    ensures r.Some? ==> forall k :: 0 <= k < r.value ==> header[k] != name
  {
    var k := FirstIndex(header, EqualTo(name));
    if k < |header| then Some(k) else None
  }

  /** The cell at position `k` of a record, padded as pandas pads it. */
  function RawAt(row: seq<string>, k: nat): (r: Value)
    ensures r.NoValue? <==> k >= |row|
    ensures k < |row| ==> r == Str(row[k])
  {
    if k < |row| then Str(row[k]) else NoValue
  }

  /** The cell at position `k`, read with `astype(str)`. */
  function At(row: seq<string>, k: nat): string {
    Shown(RawAt(row, k))
  }

  /** The cell under column `name`, where a missing column reads as "" (the
      code adds every missing column it reads as a column of ""). */
  function RawCell(header: seq<string>, row: seq<string>, name: string): (r: Value)
    ensures name !in header ==> r == Str("")
    ensures name in header ==> r.NoValue? || r.text in row
    ensures r.NoValue? <==> name in header && |row| <= ColumnIndex(header, name).value
    ensures forall k :: 0 <= k < |header| && header[k] == name && name !in header[..k] ==>
      r == if k < |row| then Str(row[k]) else NoValue
  {
    match ColumnIndex(header, name)
      case None => Str("")
      case Some(k) => RawAt(row, k)
  }

  /** The cell under column `name`, read with `astype(str)`. */
  function Cell(header: seq<string>, row: seq<string>, name: string): (r: string)
    ensures name !in header ==> r == ""
    ensures name in header ==> r == Padding || r in row
  {
    Shown(RawCell(header, row, name))
  }
}

=== FILE: lock_table.dfy ===
/** `per_course_lock_table`: the class's distinct (CourseCode, Course,
    Component) records with a lock status, ordered by CourseCode, then
    Component. */
module LockTable {
  import opened Text
  import opened Frames
  import opened Locks

  /** A table row: the raw CourseCode, Course and Component (None where the
      config record was short) and the status label. */
  datatype StatusRow = StatusRow(code: Value, course: Value, component: Value, status: string)

  const LockedLabel := "\U{1F512} Locked"
  const UnlockedLabel := "\U{1F513} Unlocked"

  /** The status table, or the KeyError raised when the class has records but
      the config has no Course column. */
  datatype LockTableResult = Rows(rows: seq<StatusRow>) | MissingColumn(name: string)

  function Label(locked: bool): string {
    if locked then LockedLabel else UnlockedLabel
  }

  /** A record of the class as the table shows it. */
  function View(r: ConfigRow, keys: set<string>): StatusRow {
    StatusRow(r.code, r.course, r.component, Label(ConfigKey(r) in keys))
  }

  function Views(rows: seq<ConfigRow>, keys: set<string>): (r: seq<StatusRow>)
    ensures |r| == |rows|
    ensures forall i :: 0 <= i < |rows| ==> r[i] == View(rows[i], keys)
  {
    seq(|rows|, i requires 0 <= i < |rows| => View(rows[i], keys))
  }

  predicate Distinct(s: seq<StatusRow>) {
    forall i, j :: 0 <= i < j < |s| ==> s[i] != s[j]
  }

  /** Position of the first occurrence of `x` in `s`. */
  function FirstPos(s: seq<StatusRow>, x: StatusRow): (k: nat)
    requires x in s
    ensures k < |s| && s[k] == x && x !in s[..k]
  {
    var k := FirstIndex(s, EqualTo(x));
    assert k < |s| by {
      var j :| 0 <= j < |s| && s[j] == x;
      assert EqualTo(x)(s[j]);
    }
    assert forall j :: 0 <= j < k ==> s[..k][j] == s[j];
    k
  }

  lemma FirstPosUnique(s: seq<StatusRow>, x: StatusRow, k: nat)
    requires k < |s| && s[k] == x && x !in s[..k]
    ensures FirstPos(s, x) == k
  {
    assert forall j :: 0 <= j < k ==> s[..k][j] == s[j];
    FirstIndexUnique(s, EqualTo(x), k);
  }

  /** Appending a value does not move the first occurrence of an earlier one. */
  lemma FirstPosSnoc(p: seq<StatusRow>, x: StatusRow, y: StatusRow)
    requires y in p
    ensures FirstPos(p + [x], y) == FirstPos(p, y)
  {
    var k := FirstPos(p, y);
    assert (p + [x])[..k] == p[..k];
    FirstPosUnique(p + [x], y, k);
  }

  /** A value new to `p` first occurs at the end of `p + [x]`. */
  lemma FirstPosNew(p: seq<StatusRow>, x: StatusRow)
    requires x !in p
    ensures FirstPos(p + [x], x) == |p|
  {
    assert (p + [x])[..|p|] == p;
    FirstPosUnique(p + [x], x, |p|);
  }

  /** Appending a value to the input moves no first occurrence of the
      de-duplicated rows so far, so their order is kept. */
  lemma KeepFirstOld(p: seq<StatusRow>, x: StatusRow, d: seq<StatusRow>)
    requires forall y :: y in d ==> y in p
    requires forall i, j :: 0 <= i < j < |d| ==> FirstPos(p, d[i]) < FirstPos(p, d[j])
    ensures forall i, j :: 0 <= i < j < |d| ==> FirstPos(p + [x], d[i]) < FirstPos(p + [x], d[j])
  {
    forall i | 0 <= i < |d| ensures FirstPos(p + [x], d[i]) == FirstPos(p, d[i]) {
      FirstPosSnoc(p, x, d[i]);
    }
  }

  /** A value new to the input goes after the de-duplicated rows so far. */
  lemma KeepFirstNew(p: seq<StatusRow>, x: StatusRow, d: seq<StatusRow>)
    requires forall y :: y in d ==> y in p
    requires x !in p
    requires forall i, j :: 0 <= i < j < |d| ==> FirstPos(p + [x], d[i]) < FirstPos(p + [x], d[j])
    ensures forall i, j :: 0 <= i < j < |d + [x]| ==> FirstPos(p + [x], (d + [x])[i]) < FirstPos(p + [x], (d + [x])[j])
  {
    var s, r := p + [x], d + [x];
    FirstPosNew(p, x);
    forall i, j | 0 <= i < j < |r| ensures FirstPos(s, r[i]) < FirstPos(s, r[j]) {
      assert r[i] == d[i];
      FirstPosSnoc(p, x, d[i]);
      if j < |d| {
        assert r[j] == d[j];
      }
    }
  }

  /** `drop_duplicates()`: the first occurrence of every value. */
  function Dedup(s: seq<StatusRow>): (r: seq<StatusRow>)
    ensures forall x :: x in r <==> x in s
    ensures Distinct(r)
  {
    if s == [] then []
    else
      var n := |s| - 1;
      var d := Dedup(s[..n]);
      assert s == s[..n] + [s[n]];
      if s[n] in d then d else d + [s[n]]
  }

  /** The de-duplicated rows come in the order of their first occurrences. */
  lemma {:induction false} DedupKeepsFirst(s: seq<StatusRow>)
    ensures forall i, j :: 0 <= i < j < |Dedup(s)| ==> FirstPos(s, Dedup(s)[i]) < FirstPos(s, Dedup(s)[j])
    decreases |s|
  {
    if s != [] {
      var n := |s| - 1;
      var p, x, d := s[..n], s[n], Dedup(s[..n]);
      assert s == p + [x];
      DedupKeepsFirst(p);
      KeepFirstOld(p, x, d);
      if x !in d {
        KeepFirstNew(p, x, d);
      }
    }
  }

  // ---------------------------------------------------------------------
  // Ordering by (CourseCode, Component)
  // ---------------------------------------------------------------------

  /** Python's `<` on strings: code point by code point, a proper prefix first. */
  predicate StrLess(a: string, b: string) {
    if a == [] then b != []
    else b != [] && (a[0] < b[0] || (a[0] == b[0] && StrLess(a[1..], b[1..])))
  }

  lemma {:induction false} StrLessIrreflexive(a: string)
    ensures !StrLess(a, a)
  {
    if a != [] {
      StrLessIrreflexive(a[1..]);
    }
  }

  lemma {:induction false} StrLessTransitive(a: string, b: string, c: string)
    requires StrLess(a, b) && StrLess(b, c)
    ensures StrLess(a, c)
  {
    if a != [] && a[0] == b[0] && b[0] == c[0] {
      StrLessTransitive(a[1..], b[1..], c[1..]);
    }
  }

  lemma {:induction false} StrLessTotal(a: string, b: string)
    requires a != b
    ensures StrLess(a, b) || StrLess(b, a)
  {
    if a != [] && b != [] && a[0] == b[0] {
      assert a == [a[0]] + a[1..] && b == [b[0]] + b[1..];
      StrLessTotal(a[1..], b[1..]);
    }
  }

  /** The order `sort_values` uses on a column of strings and None: strings
      by Python's `<`, and None after every string (`na_position="last"`). */
  predicate ValueLess(a: Value, b: Value) {
    match a
    case NoValue => false
    case Str(s) => b.NoValue? || StrLess(s, b.text)
  }

  lemma ValueLessIrreflexive(a: Value)
    ensures !ValueLess(a, a)
  {
    if a.Str? {
      StrLessIrreflexive(a.text);
    }
  }

  lemma ValueLessTransitive(a: Value, b: Value, c: Value)
    requires ValueLess(a, b) && ValueLess(b, c)
    ensures ValueLess(a, c)
  {
    if c.Str? {
      StrLessTransitive(a.text, b.text, c.text);
    }
  }

  lemma ValueLessTotal(a: Value, b: Value)
    requires a != b
    ensures ValueLess(a, b) || ValueLess(b, a)
  {
    if a.Str? && b.Str? {
      StrLessTotal(a.text, b.text);
    }
  }

  /** The sort key (CourseCode, Component) of `x` is below that of `y`. */
  predicate RowLess(x: StatusRow, y: StatusRow) {
    ValueLess(x.code, y.code) || (x.code == y.code && ValueLess(x.component, y.component))
  }

  predicate RowLe(x: StatusRow, y: StatusRow) {
    !RowLess(y, x)
  }

  lemma RowLessAsymmetric(x: StatusRow, y: StatusRow)
    requires RowLess(x, y)
    ensures !RowLess(y, x)
  {
    if ValueLess(x.code, y.code) {
      ValueLessIrreflexive(x.code);
      if ValueLess(y.code, x.code) {
        ValueLessTransitive(x.code, y.code, x.code);
      }
    } else {
      ValueLessIrreflexive(x.code);
      ValueLessIrreflexive(x.component);
      if ValueLess(y.component, x.component) {
        ValueLessTransitive(x.component, y.component, x.component);
      }
    }
  }

  /** A key below another stays below everything at or above that other. */
  lemma RowLessLe(x: StatusRow, y: StatusRow, z: StatusRow)
    requires RowLess(x, y) && RowLe(y, z)
    ensures RowLess(x, z)
  {
    if x.code != z.code {
      ValueLessTotal(x.code, z.code);
      if ValueLess(z.code, x.code) {
        if ValueLess(x.code, y.code) {
          ValueLessTransitive(z.code, x.code, y.code);
        }
        assert false;
      }
    } else if ValueLess(x.code, y.code) {
      if y.code != z.code {
        ValueLessTotal(y.code, z.code);
        ValueLessTransitive(z.code, x.code, y.code);
      } else {
        ValueLessIrreflexive(x.code);
      }
    } else {
      assert x.code == y.code && ValueLess(x.component, y.component);
      if x.component != z.component {
        ValueLessTotal(x.component, z.component);
        if ValueLess(z.component, x.component) {
          ValueLessTransitive(z.component, x.component, y.component);
        }
      } else {
        assert false;
      }
    }
  }

  lemma RowLeTransitive(x: StatusRow, y: StatusRow, z: StatusRow)
    requires RowLe(x, y) && RowLe(y, z)
    ensures RowLe(x, z)
  {
    if RowLess(z, x) {
      RowLessLe(z, x, y);
    }
  }

  predicate Sorted(s: seq<StatusRow>) {
    forall i, j :: 0 <= i < j < |s| ==> RowLe(s[i], s[j])
  }

  /** Puts `x` after every element whose key is not above its own. */
  function Insert(s: seq<StatusRow>, x: StatusRow): (r: seq<StatusRow>)
    ensures multiset(r) == multiset(s) + multiset{x}
  {
    if s == [] then [x]
    else if RowLess(x, s[0]) then [x] + s
    else
      assert s == [s[0]] + s[1..];
      [s[0]] + Insert(s[1..], x)
  }

  /** A row at or below every row of a sorted sequence can go in front. */
  lemma SortedCons(h: StatusRow, t: seq<StatusRow>)
    requires Sorted(t)
    requires forall y :: y in t ==> RowLe(h, y)
    ensures Sorted([h] + t)
  {
    var r := [h] + t;
    forall i, j | 0 <= i < j < |r| ensures RowLe(r[i], r[j]) {
      assert r[j] == t[j - 1];
      if i > 0 {
        assert r[i] == t[i - 1];
      }
    }
  }

  /** A row below the head of a sorted sequence is below all of it. */
  lemma BelowHead(x: StatusRow, s: seq<StatusRow>)
    requires Sorted(s) && s != [] && RowLess(x, s[0])
    ensures forall y :: y in s ==> RowLe(x, y)
  {
    forall y | y in s ensures RowLe(x, y) {
      var k :| 0 <= k < |s| && s[k] == y;
      if k > 0 {
        RowLessLe(x, s[0], y);
      }
      RowLessAsymmetric(x, y);
    }
  }

  lemma {:induction false} InsertSorted(s: seq<StatusRow>, x: StatusRow)
    requires Sorted(s)
    ensures Sorted(Insert(s, x))
    decreases |s|
  {
    if s == [] {
    } else if RowLess(x, s[0]) {
      BelowHead(x, s);
      SortedCons(x, s);
    } else {
      var t := Insert(s[1..], x);
      InsertSorted(s[1..], x);
      forall y | y in t ensures RowLe(s[0], y) {
        assert y in multiset(t);
        if y != x {
          assert y in s[1..];
        }
      }
      SortedCons(s[0], t);
    }
  }

  /** A row that is not in a distinct sequence can go in front. */
  lemma DistinctCons(h: StatusRow, t: seq<StatusRow>)
    requires Distinct(t) && h !in t
    ensures Distinct([h] + t)
  {
    var r := [h] + t;
    forall i, j | 0 <= i < j < |r| ensures r[i] != r[j] {
      assert r[j] == t[j - 1];
      if i > 0 {
        assert r[i] == t[i - 1];
      }
    }
  }

  lemma {:induction false} InsertDistinct(s: seq<StatusRow>, x: StatusRow)
    requires Distinct(s) && x !in s
    ensures Distinct(Insert(s, x))
    decreases |s|
  {
    if s == [] {
    } else if RowLess(x, s[0]) {
      DistinctCons(x, s);
    } else {
      var u := s[1..];
      assert Distinct(u) by {
        forall i, j | 0 <= i < j < |u| ensures u[i] != u[j] {
          assert u[i] == s[i + 1] && u[j] == s[j + 1];
        }
      }
      assert s[0] !in u;
      assert x !in u;
      InsertDistinct(u, x);
      var t := Insert(u, x);
      assert s[0] !in multiset(t);
      DistinctCons(s[0], t);
    }
  }

  /** `sort_values(by=["CourseCode", "Component"])` as a stable insertion sort. */
  function SortRows(s: seq<StatusRow>): (r: seq<StatusRow>)
    ensures multiset(r) == multiset(s)
    ensures Sorted(r)
  {
    if s == [] then []
    else
      var n := |s| - 1;
      var t := SortRows(s[..n]);
      assert s == s[..n] + [s[n]];
      assert multiset(s) == multiset(s[..n]) + multiset{s[n]};
      InsertSorted(t, s[n]);
      Insert(t, s[n])
  }

  /** Sorting distinct rows gives distinct rows. */
  lemma {:induction false} SortRowsDistinct(s: seq<StatusRow>)
    requires Distinct(s)
    ensures Distinct(SortRows(s))
    decreases |s|
  {
    if s != [] {
      var n := |s| - 1;
      var p := s[..n];
      assert Distinct(p) by {
        forall i, j | 0 <= i < j < |p| ensures p[i] != p[j] {
          assert p[i] == s[i] && p[j] == s[j];
        }
      }
      assert s[n] !in p;
      SortRowsDistinct(p);
      var t := SortRows(p);
      assert s[n] !in multiset(p);
      assert s[n] !in t by {
        assert multiset(t) == multiset(p);
        assert s[n] !in multiset(t);
      }
      InsertDistinct(t, s[n]);
      assert SortRows(s) == Insert(t, s[n]);
    }
  }

  // ---------------------------------------------------------------------
  // The table
  // ---------------------------------------------------------------------

  /** The class's records, projected, without duplicates, in key order. */
  function StatusTable(cs: seq<ConfigRow>, keys: set<string>): (r: seq<StatusRow>)
    ensures Sorted(r) && Distinct(r)
    ensures forall x :: x in r <==> x in Views(cs, keys)
  {
    var d := Dedup(Views(cs, keys));
    var r := SortRows(d);
    SortRowsDistinct(d);
    assert forall x :: x in r <==> x in multiset(d);
    r
  }

  /** Each row of the status table comes from a record of the class, and it
      reads Locked exactly when that record's key is locked. */
  lemma StatusRowSource(cs: seq<ConfigRow>, keys: set<string>, x: StatusRow) returns (c: ConfigRow)
    requires x in StatusTable(cs, keys)
    ensures c in cs && c.code == x.code && c.course == x.course && c.component == x.component
    ensures x.status == LockedLabel <==> ConfigKey(c) in keys
  {
    var v := Views(cs, keys);
    var i :| 0 <= i < |v| && v[i] == x;
    c := cs[i];
  }

  /** Every record of the class is shown, with its status. */
  lemma StatusRowShown(cs: seq<ConfigRow>, keys: set<string>, c: ConfigRow)
    requires c in cs
    ensures View(c, keys) in StatusTable(cs, keys)
  {
    var i :| 0 <= i < |cs| && cs[i] == c;
    assert Views(cs, keys)[i] == View(c, keys);
  }

  /** All rows read Locked, and there is one, exactly when every record is
      locked and there is one. */
  lemma StatusTableAllLocked(cs: seq<ConfigRow>, keys: set<string>)
    ensures (StatusTable(cs, keys) != [] && forall x :: x in StatusTable(cs, keys) ==> x.status == LockedLabel)
        <==> (cs != [] && forall c :: c in cs ==> ConfigKey(c) in keys)
  {
    var rows := StatusTable(cs, keys);
    if cs != [] {
      StatusRowShown(cs, keys, cs[0]);
    }
    if rows != [] && forall x :: x in rows ==> x.status == LockedLabel {
      forall c | c in cs ensures ConfigKey(c) in keys {
        StatusRowShown(cs, keys, c);
      }
      var c0 := StatusRowSource(cs, keys, rows[0]);
    }
    if cs != [] && forall c :: c in cs ==> ConfigKey(c) in keys {
      forall x | x in rows ensures x.status == LockedLabel {
        var c := StatusRowSource(cs, keys, x);
      }
    }
  }

  /** Records padded with None in CourseCode come after every record with a
      CourseCode string. */
  lemma PaddedCodesLast(cs: seq<ConfigRow>, keys: set<string>)
    ensures forall i, j :: 0 <= i < j < |StatusTable(cs, keys)| && StatusTable(cs, keys)[i].code.NoValue? ==>
              StatusTable(cs, keys)[j].code.NoValue?
  {
    var r := StatusTable(cs, keys);
    forall i, j | 0 <= i < j < |r| && r[i].code.NoValue? ensures r[j].code.NoValue? {
      assert RowLe(r[i], r[j]);
    }
  }

  /** `per_course_lock_table` on a prepared config. */
  function PerCourseLockTable(cfg: Config, audit: Table, klass: string): (r: LockTableResult)
    ensures ClassRows(cfg.rows, klass) == [] ==> r == Rows([])
    ensures r.MissingColumn? <==> ClassRows(cfg.rows, klass) != [] && !cfg.hasCourse
    ensures r.Rows? ==> Sorted(r.rows) && Distinct(r.rows)
    ensures r.Rows? ==> forall x :: x in r.rows <==> x in Views(ClassRows(cfg.rows, klass), LockedKeys(audit))
  {
    if cfg.rows == [] then Rows([])
    else
      var c := ClassRows(cfg.rows, klass);
      if c == [] then Rows([])
      else if !cfg.hasCourse then MissingColumn("Course")
      else Rows(StatusTable(c, LockedKeys(audit)))
  }

  /** The table and the counter agree: every status reads Locked, and there
      is at least one row, exactly when the counter reports the class fully
      locked. */
  lemma TableAgreesWithCounter(cfg: Config, audit: Table, klass: string)
    requires cfg.hasCourse
    ensures AllComponentsLocked(cfg, audit, klass).allLocked
        <==> PerCourseLockTable(cfg, audit, klass).rows != []
             && forall x :: x in PerCourseLockTable(cfg, audit, klass).rows ==> x.status == LockedLabel
  {
    var cs := ClassRows(cfg.rows, klass);
    AllLockedMeaning(cfg, audit, klass);
    if cfg.rows == [] {
      assert cs == [];
    }
    StatusTableAllLocked(cs, LockedKeys(audit));
  }
}

=== FILE: locks.dfy ===
/** Which configured assessment components of a class are locked:
    `_prep_cfg`, `all_components_locked_for_class` and `per_course_lock_table`. */
module Locks {
  import opened Text
  import opened Frames

  /** A `_Config` record after `_prep_cfg`: the raw Class, Course, CourseCode
      and Component cells (None where the record was short), and the
      stripped, lower-cased text of Class, CourseCode and Component. */
  datatype ConfigRow = ConfigRow(
    klass: Value, course: Value, code: Value, component: Value,
    classLower: string, codeLower: string, compLower: string)

  /** The prepared config. `_prep_cfg` adds a missing Class, CourseCode or
      Component column, but not a missing Course column: `hasCourse` records
      whether there is one. */
  datatype Config = Config(hasCourse: bool, rows: seq<ConfigRow>)

  /** A prepared row whose derived columns are the canonical forms of its raw
      columns. */
  predicate Prepared(r: ConfigRow) {
    r.classLower == Canon(Shown(r.klass)) && r.codeLower == Canon(Shown(r.code))
    && r.compLower == Canon(Shown(r.component))
  }

  /** Canonical forms have no upper-case letter and no surrounding whitespace,
      so canonicalising twice changes nothing. */
  lemma CanonIdempotent(s: string)
    ensures Canon(Canon(s)) == Canon(s)
  {
    var t := Trim(s);
    StripFixpoint(t, IsSpace);
    TrimLower(t);
    LowerTwice(t);
  }

  function PrepRow(header: seq<string>, row: seq<string>): (r: ConfigRow)
    ensures Prepared(r)
  {
    var klass, code, component := RawCell(header, row, "Class"), RawCell(header, row, "CourseCode"), RawCell(header, row, "Component");
    ConfigRow(klass, RawCell(header, row, "Course"), code, component, Canon(Shown(klass)), Canon(Shown(code)), Canon(Shown(component)))
  }

  /** `_prep_cfg`: an empty sheet becomes the empty frame with every column
      named; otherwise every record is kept, in order, with its canonical
      Class, CourseCode and Component added. */
  function PrepConfig(t: Table): (r: Config)
    ensures Empty(t) ==> r == Config(true, [])
    ensures !Empty(t) ==> r.hasCourse == ("Course" in t.header) && |r.rows| == |t.rows|
    ensures !Empty(t) ==> forall i :: 0 <= i < |r.rows| ==>
      r.rows[i].klass == RawCell(t.header, t.rows[i], "Class")
      && r.rows[i].course == RawCell(t.header, t.rows[i], "Course")
      && r.rows[i].code == RawCell(t.header, t.rows[i], "CourseCode")
      && r.rows[i].component == RawCell(t.header, t.rows[i], "Component")
    ensures forall i :: 0 <= i < |r.rows| ==> Prepared(r.rows[i])
  {
    if Empty(t) then Config(true, [])
    else Config("Course" in t.header, seq(|t.rows|, i requires 0 <= i < |t.rows| => PrepRow(t.header, t.rows[i])))
  }

  // ---------------------------------------------------------------------
  // Join keys and the lock rule
  // ---------------------------------------------------------------------

  const Separator := "||"
  const LockedAction := "locked"

  /** `_code_lower + "||" + _comp_lower` */
  function ConfigKey(r: ConfigRow): string {
    r.codeLower + Separator + r.compLower
  }

  /** The audit key: Course and Component lower-cased, then stripped. */
  function AuditKey(header: seq<string>, row: seq<string>): string {
    Trim(Lower(Cell(header, row, "Course"))) + Separator + Trim(Lower(Cell(header, row, "Component")))
  }

  /** An audit record that locks: its Action lower-cases to exactly "locked"
      (no stripping; the record's Class is not looked at). */
  predicate IsLockRecord(header: seq<string>, row: seq<string>) {
    Lower(Cell(header, row, "Action")) == LockedAction
  }

  /** The keys of the locking audit records. */
  function LockedKeys(audit: Table): set<string> {
    set i | 0 <= i < |audit.rows| && IsLockRecord(audit.header, audit.rows[i]) :: AuditKey(audit.header, audit.rows[i])
  }

  predicate IsLocked(r: ConfigRow, audit: Table) {
    ConfigKey(r) in LockedKeys(audit)
  }

  /** The lock rule: a prepared config record is locked exactly when some
      locking audit record has the same key, both sides built from stripped,
      lower-cased cells. */
  lemma LockRule(r: ConfigRow, audit: Table)
    requires Prepared(r)
    ensures IsLocked(r, audit)
        <==> (exists i :: 0 <= i < |audit.rows| && IsLockRecord(audit.header, audit.rows[i])
               && Canon(Cell(audit.header, audit.rows[i], "Course")) + Separator + Canon(Cell(audit.header, audit.rows[i], "Component"))
                  == Canon(Shown(r.code)) + Separator + Canon(Shown(r.component)))
  {
    forall i | 0 <= i < |audit.rows|
      ensures AuditKey(audit.header, audit.rows[i])
           == Canon(Cell(audit.header, audit.rows[i], "Course")) + Separator + Canon(Cell(audit.header, audit.rows[i], "Component"))
    {
      TrimLower(Cell(audit.header, audit.rows[i], "Course"));
      TrimLower(Cell(audit.header, audit.rows[i], "Component"));
    }
  }

  /** The key is a plain concatenation, so a "||" inside a cell can give two
      records with different course codes one key, and so one lock. */
  lemma KeyCollision(r1: ConfigRow, r2: ConfigRow, audit: Table)
    requires r1.codeLower == "a||b" && r1.compLower == "c"
    requires r2.codeLower == "a" && r2.compLower == "b||c"
    ensures r1.codeLower != r2.codeLower && ConfigKey(r1) == ConfigKey(r2)
    ensures IsLocked(r1, audit) <==> IsLocked(r2, audit)
  {
    assert "a||b" != "a";
  }

  /** An empty audit sheet locks nothing. */
  lemma EmptyAuditNoKeys(audit: Table)
    requires Empty(audit)
    ensures LockedKeys(audit) == {}
  {
    if |audit.header| == 0 {
      forall i | 0 <= i < |audit.rows| ensures !IsLockRecord(audit.header, audit.rows[i]) {
        assert Cell(audit.header, audit.rows[i], "Action") == "";
        assert |Lower("")| != |LockedAction|;
      }
    }
  }

  /** Adding an audit record never removes a locked key. */
  lemma LockedKeysGrow(audit: Table, row: seq<string>)
    ensures LockedKeys(audit) <= LockedKeys(Table(audit.header, audit.rows + [row]))
  {
    var more := Table(audit.header, audit.rows + [row]);
    forall i | 0 <= i < |audit.rows| && IsLockRecord(audit.header, audit.rows[i])
      ensures AuditKey(audit.header, audit.rows[i]) in LockedKeys(more)
    {
      assert more.rows[i] == audit.rows[i];
    }
  }

  // ---------------------------------------------------------------------
  // The counter
  // ---------------------------------------------------------------------

  /** The records of the class: `_class_lower == str(klass).lower()`, with
      `klass` lower-cased but not stripped. Every matching record is kept,
      duplicates included, in order. */
  function ClassRows(rows: seq<ConfigRow>, klass: string): (r: seq<ConfigRow>)
    ensures |r| <= |rows|
    ensures forall x :: multiset(r)[x] == if x.classLower == Lower(klass) then multiset(rows)[x] else 0
  {
    if rows == [] then []
    else
      var n := |rows| - 1;
      assert rows == rows[..n] + [rows[n]];
      ClassRows(rows[..n], klass) + (if rows[n].classLower == Lower(klass) then [rows[n]] else [])
  }

  /** The records whose key is among `keys`, duplicates included. */
  function LockedRows(rows: seq<ConfigRow>, keys: set<string>): (r: seq<ConfigRow>)
    ensures forall x :: multiset(r)[x] == if ConfigKey(x) in keys then multiset(rows)[x] else 0
  {
    if rows == [] then []
    else
      var n := |rows| - 1;
      assert rows == rows[..n] + [rows[n]];
      LockedRows(rows[..n], keys) + (if ConfigKey(rows[n]) in keys then [rows[n]] else [])
  }

  /** `c["key"].isin(keys).sum()`: how many records have their key among `keys`. */
  function CountLocked(rows: seq<ConfigRow>, keys: set<string>): (r: nat)
    ensures r <= |rows|
    ensures r == |rows| <==> forall x :: x in rows ==> ConfigKey(x) in keys
  {
    if rows == [] then 0
    else
      var n := |rows| - 1;
      var p, x := rows[..n], rows[n];
      var c := CountLocked(p, keys);
      assert rows == p + [x];
      assert forall y :: y in rows <==> y in p || y == x;
      c + (if ConfigKey(x) in keys then 1 else 0)
  }

  /** The count is the number of records, duplicates included, whose key is
      among `keys`. */
  lemma {:induction false} CountLockedExact(rows: seq<ConfigRow>, keys: set<string>)
    ensures CountLocked(rows, keys) == |LockedRows(rows, keys)|
    decreases |rows|
  {
    if rows != [] {
      var n := |rows| - 1;
      var p, x := rows[..n], rows[n];
      CountLockedExact(p, keys);
      assert LockedRows(rows, keys) == LockedRows(p, keys) + (if ConfigKey(x) in keys then [x] else []);
    }
  }

  lemma {:induction false} CountLockedMonotone(rows: seq<ConfigRow>, keys: set<string>, more: set<string>)
    requires keys <= more
    ensures CountLocked(rows, keys) <= CountLocked(rows, more)
    decreases |rows|
  {
    if rows != [] {
      CountLockedMonotone(rows[..|rows| - 1], keys, more);
    }
  }

  /** (locked, total, all locked) */
  datatype LockCount = LockCount(locked: nat, total: nat, allLocked: bool)

  /** `all_components_locked_for_class` on a prepared config. */
  function AllComponentsLocked(cfg: Config, audit: Table, klass: string): (r: LockCount)
    ensures r.total == |ClassRows(cfg.rows, klass)|
    ensures r.locked <= r.total
    ensures !Empty(audit) ==> r.locked == CountLocked(ClassRows(cfg.rows, klass), LockedKeys(audit))
    ensures r.allLocked <==> r.total > 0 && r.locked == r.total
    ensures r.total == 0 ==> r == LockCount(0, 0, false)
    ensures Empty(audit) ==> r == LockCount(0, r.total, false)
  {
    if cfg.rows == [] then LockCount(0, 0, false)
    else
      var c := ClassRows(cfg.rows, klass);
      if |c| == 0 then LockCount(0, 0, false)
      else if Empty(audit) then LockCount(0, |c|, false)
      else
        var locked := CountLocked(c, LockedKeys(audit));
        LockCount(locked, |c|, locked == |c|)
  }

  /** The class counts as fully locked exactly when it has records and every
      one of them is locked by the audit. */
  lemma AllLockedMeaning(cfg: Config, audit: Table, klass: string)
    ensures AllComponentsLocked(cfg, audit, klass).allLocked
        <==> ClassRows(cfg.rows, klass) != []
             && forall x :: x in ClassRows(cfg.rows, klass) ==> IsLocked(x, audit)
  {
    var c := ClassRows(cfg.rows, klass);
    if cfg.rows == [] {
      assert c == [];
    } else if c != [] && Empty(audit) {
      EmptyAuditNoKeys(audit);
      assert !IsLocked(c[0], audit);
    }
  }

  /** Logging one more audit record never lowers the locked count. */
  lemma LockedCountMonotone(cfg: Config, audit: Table, row: seq<string>, klass: string)
    ensures AllComponentsLocked(cfg, Table(audit.header, audit.rows + [row]), klass).locked
         >= AllComponentsLocked(cfg, audit, klass).locked
  {
    var more := Table(audit.header, audit.rows + [row]);
    if !Empty(audit) {
      LockedKeysGrow(audit, row);
      CountLockedMonotone(ClassRows(cfg.rows, klass), LockedKeys(audit), LockedKeys(more));
    }
  }
}

=== FILE: normalize.dfy ===
/** Title normalisation (`_norm`) and the spellings of a class name that the
    final-tab search accepts (`_klass_variants`). */
module Normalize {
  import opened Text

  /** `_norm`: lower-case, turn every run of characters other than a-z and 0-9
      into one space, then strip surrounding whitespace. */
  function Norm(s: string): string {
    Trim(SubRuns(Lower(s), IsLowerAlnum, ' '))
  }

  /** The shape of a normalised string: only a-z, 0-9 and single spaces
      between words. */
  predicate IsNormal(s: string) {
    (forall i :: 0 <= i < |s| ==> IsLowerAlnum(s[i]) || s[i] == ' ')
    && NoDoubled(s, ' ')
    && (s == [] || (s[0] != ' ' && s[|s| - 1] != ' '))
  }

  /** A slice of a string made of a-z, 0-9 and single spaces is made of them too. */
  lemma SliceKeepsShape(t: string, i: nat, j: nat)
    requires i <= j <= |t|
    requires forall k :: 0 <= k < |t| ==> IsLowerAlnum(t[k]) || t[k] == ' '
    requires NoDoubled(t, ' ')
    ensures forall k :: 0 <= k < j - i ==> IsLowerAlnum(t[i..j][k]) || t[i..j][k] == ' '
    ensures NoDoubled(t[i..j], ' ')
  {
    var r := t[i..j];
    forall k | 0 <= k < |r| ensures IsLowerAlnum(r[k]) || r[k] == ' ' {
      assert r[k] == t[i + k];
    }
    forall k | 0 <= k < |r| - 1 ensures !(r[k] == ' ' && r[k + 1] == ' ') {
      assert r[k] == t[i + k] && r[k + 1] == t[i + k + 1];
    }
  }

  /** Every output of Norm has the normal shape. */
  lemma NormIsNormal(s: string)
    ensures IsNormal(Norm(s))
  {
    var t := SubRuns(Lower(s), IsLowerAlnum, ' ');
    SubRunsShape(Lower(s), IsLowerAlnum, ' ');
    var i, j := StripMiddle(t, IsSpace);
    SliceKeepsShape(t, i, j);
  }

  /** Lower leaves a string without upper-case letters alone. */
  lemma LowerFixpoint(s: string)
    requires forall i :: 0 <= i < |s| ==> !IsUpper(s[i])
    ensures Lower(s) == s
  {
  }

  /** Normalised strings are fixed points of Norm. */
  lemma NormalFixpoint(s: string)
    requires IsNormal(s)
    ensures Norm(s) == s
  {
    LowerFixpoint(s);
    SubRunsFixpoint(s, IsLowerAlnum, ' ');
    StripFixpoint(s, IsSpace);
  }

  /** `_norm(_norm(s)) == _norm(s)`. */
  lemma NormIdempotent(s: string)
    ensures Norm(Norm(s)) == Norm(s)
  {
    NormIsNormal(s);
    NormalFixpoint(Norm(s));
  }

  lemma LowerAppend(a: string, b: string)
    ensures Lower(a + b) == Lower(a) + Lower(b)
  {
  }

  /** A word of ASCII letters and digits anywhere in a title survives
      normalisation, lower-cased. */
  lemma NormKeepsWord(x: string, w: string, y: string)
    requires w != [] && All(w, IsAsciiAlnum)
    ensures Contains(Norm(x + w + y), Lower(w))
  {
    LowerAppend(x + w, y);
    LowerAppend(x, w);
    var lw := Lower(w);
    assert All(lw, IsLowerAlnum) by {
      forall k | 0 <= k < |lw| ensures IsLowerAlnum(lw[k]) {
        assert IsAsciiAlnum(w[k]);
      }
    }
    SubRunsKeepsRun(Lower(x), lw, Lower(y), IsLowerAlnum, ' ');
    assert IsLowerAlnum(lw[0]) && IsLowerAlnum(lw[|lw| - 1]);
    StripKeepsContains(SubRuns(Lower(x + w + y), IsLowerAlnum, ' '), lw, IsSpace);
  }

  // ---------------------------------------------------------------------
  // Class-name variants
  // ---------------------------------------------------------------------

  /** The spellings of an already trimmed class name `k`: '/' written as '-'
      or '_', and spaces written as '-', '_' or dropped. None is longer than
      `k`. */
  function Spellings(k: string): (r: set<string>)
    ensures k in r && Replace(k, ' ', "") in r
    ensures forall v :: v in r ==> |v| <= |k|
  {
    var a, b, c, d, e := Replace(k, '/', "-"), Replace(k, '/', "_"), Replace(k, ' ', "-"), Replace(k, ' ', "_"), Replace(k, ' ', "");
    assert |a| <= |k| && |b| <= |k| && |c| <= |k| && |d| <= |k| && |e| <= |k|;
    {k, a, b, c, d, e}
  }

  /** The spellings of `k` listed one by one. */
  lemma SixSpellings(k: string)
    ensures Spellings(k) == {k, Replace(k, '/', "-"), Replace(k, '/', "_"), Replace(k, ' ', "-"), Replace(k, ' ', "_"), Replace(k, ' ', "")}
  {
  }

  /** `_klass_variants`: the spellings of the trimmed class name. */
  function KlassVariants(klass: string): (r: set<string>)
    ensures Trim(klass) in r
    ensures Replace(Trim(klass), ' ', "") in r
    ensures forall v :: v in r ==> |v| <= |Trim(klass)|
    ensures '/' !in Trim(klass) && ' ' !in Trim(klass) ==> r == {Trim(klass)}
  {
    Spellings(Trim(klass))
  }

  /** Writing one character outside a-z, A-Z and 0-9 as another such
      character does not change the normalised form. */
  lemma NormSpelling(k: string, c: char, d: char)
    requires !IsAsciiAlnum(c) && !IsAsciiAlnum(d)
    ensures Norm(Replace(k, c, [d])) == Norm(k)
  {
    ReplaceChar(k, c, d);
    var a, b := Lower(Replace(k, c, [d])), Lower(k);
    forall i | 0 <= i < |a| ensures IsLowerAlnum(a[i]) == IsLowerAlnum(b[i]) && (IsLowerAlnum(a[i]) ==> a[i] == b[i]) {
      assert a[i] == LowerChar(Replace(k, c, [d])[i]) && b[i] == LowerChar(k[i]);
    }
    SubRunsSameKept(a, b, IsLowerAlnum, ' ');
  }

  /** The image under `f` of six strings, four of which `f` sends where it
      sends the first. */
  lemma ImageOfSix(f: string -> string, s: set<string>, k: string, a: string, b: string, c: string, d: string, e: string)
    requires s == {k, a, b, c, d, e}
    requires f(a) == f(k) && f(b) == f(k) && f(c) == f(k) && f(d) == f(k)
    ensures (set v | v in s :: f(v)) == {f(k), f(e)}
  {
    var img := set v | v in s :: f(v);
    forall y | y in img ensures y == f(k) || y == f(e) {
      var v :| v in s && y == f(v);
    }
    assert f(k) in img && f(e) in img;
  }

  /** `set(map(_norm, _klass_variants(klass)))` */
  function NormalizedVariants(klass: string): (r: set<string>)
    ensures Norm(Trim(klass)) in r
    ensures forall v :: v in r ==> IsNormal(v)
  {
    var r := set v | v in KlassVariants(klass) :: Norm(v);
    assert Norm(Trim(klass)) in r;
    forall v | v in r ensures IsNormal(v) {
      var u :| u in KlassVariants(klass) && v == Norm(u);
      NormIsNormal(u);
    }
    r
  }

  /** The normalised variants are exactly two: the normalised class name and
      the normalised name with its spaces dropped. */
  lemma NormalizedVariantsExact(klass: string)
    ensures NormalizedVariants(klass) == {Norm(Trim(klass)), Norm(Replace(Trim(klass), ' ', ""))}
  {
    var k := Trim(klass);
    var a, b, c, d, e := Replace(k, '/', "-"), Replace(k, '/', "_"), Replace(k, ' ', "-"), Replace(k, ' ', "_"), Replace(k, ' ', "");
    SixSpellings(k);
    NormSpelling(k, '/', '-');
    NormSpelling(k, '/', '_');
    NormSpelling(k, ' ', '-');
    NormSpelling(k, ' ', '_');
    ImageOfSix(Norm, KlassVariants(klass), k, a, b, c, d, e);
  }
}

=== FILE: slug.dfy ===
/** `_slug`: a file-name-safe name for a download. */
module Slug {
  import opened Text

  const Fallback := "export"

  /** `" ".join(parts)` */
  function Join(parts: seq<string>): (r: string)
    ensures parts == [] ==> r == []
    ensures |parts| == 1 ==> r == parts[0]
  {
    if parts == [] then []
    else if |parts| == 1 then parts[0]
    else Join(parts[..|parts| - 1]) + " " + parts[|parts| - 1]
  }

  /** The cleaned text before the fallback: runs outside [\w-] become '_',
      runs of '_' become one '_', and '_' is stripped from both ends. */
  function Clean(s: string): string {
    Strip(SubRuns(SubRuns(s, IsSlugChar, '_'), IsNotUnderscore, '_'), IsUnderscore)
  }

  /** The shape of every cleaned name: letters, digits, '_' and '-' only, no
      "__", and no '_' at either end. */
  predicate IsSlug(s: string) {
    All(s, IsSlugChar) && NoDoubled(s, '_') && (s == [] || (s[0] != '_' && s[|s| - 1] != '_'))
  }

  lemma SlugCharsKept(s: string)
    ensures All(SubRuns(s, IsSlugChar, '_'), IsSlugChar)
  {
    SubRunsShape(s, IsSlugChar, '_');
  }

  lemma UnderscoreRunsCollapsed(a: string)
    requires All(a, IsSlugChar)
    ensures All(SubRuns(a, IsNotUnderscore, '_'), IsSlugChar)
    ensures NoDoubled(SubRuns(a, IsNotUnderscore, '_'), '_')
  {
    SubRunsKeepsAll(a, IsNotUnderscore, '_', IsSlugChar);
    SubRunsShape(a, IsNotUnderscore, '_');
  }

  lemma {:induction false} StripUnderscoreIsSlug(b: string)
    requires All(b, IsSlugChar) && NoDoubled(b, '_')
    ensures IsSlug(Strip(b, IsUnderscore))
  {
    var i, j := StripMiddle(b, IsUnderscore);
    SliceAll(b, i, j, IsSlugChar);
    SliceNoDoubled(b, i, j, '_');
  }

  lemma CleanIsSlug(s: string)
    ensures IsSlug(Clean(s))
  {
    var a := SubRuns(s, IsSlugChar, '_');
    SlugCharsKept(s);
    UnderscoreRunsCollapsed(a);
    StripUnderscoreIsSlug(SubRuns(a, IsNotUnderscore, '_'));
  }

  /** A name that already has the slug shape is left alone by cleaning. */
  lemma CleanFixpoint(s: string)
    requires IsSlug(s)
    ensures Clean(s) == s
  {
    SubRunsAllKept(s, IsSlugChar, '_');
    SubRunsFixpoint(s, IsNotUnderscore, '_');
    StripFixpoint(s, IsUnderscore);
  }

  lemma FallbackIsSlug()
    ensures IsSlug(Fallback)
  {
  }

  /** `_slug(*parts)` */
  function MakeSlug(parts: seq<string>): (r: string)
    ensures r != []
    ensures IsSlug(r)
  {
    var c := Clean(Join(parts));
    CleanIsSlug(Join(parts));
    FallbackIsSlug();
    if c == [] then Fallback else c
  }

  /** A slug is its own slug. */
  lemma SlugIdempotent(parts: seq<string>)
    ensures MakeSlug([MakeSlug(parts)]) == MakeSlug(parts)
  {
    CleanFixpoint(MakeSlug(parts));
  }

  /** Cleaning keeps every letter, digit and '-' of the joined text, in order,
      and adds no other one. */
  lemma CleanKeepsWordChars(s: string)
    ensures Filter(Clean(s), IsAlnumOrDash) == Filter(s, IsAlnumOrDash)
  {
    var a := SubRuns(s, IsSlugChar, '_');
    SubRunsFilter(s, IsSlugChar, '_', IsAlnumOrDash);
    SubRunsFilter(a, IsNotUnderscore, '_', IsAlnumOrDash);
    StripFilter(SubRuns(a, IsNotUnderscore, '_'), IsUnderscore, IsAlnumOrDash);
  }

  /** The fallback name is used when the parts hold no letter, digit or '-';
      otherwise the slug holds all of those, in order, and no others. */
  lemma SlugFallback(parts: seq<string>)
    ensures Filter(Join(parts), IsAlnumOrDash) == [] ==> MakeSlug(parts) == Fallback
    ensures Filter(Join(parts), IsAlnumOrDash) != [] ==> Filter(MakeSlug(parts), IsAlnumOrDash) == Filter(Join(parts), IsAlnumOrDash)
  {
    var s := Join(parts);
    var c := Clean(s);
    CleanKeepsWordChars(s);
    CleanIsSlug(s);
    if c != [] && Filter(c, IsAlnumOrDash) == [] {
      // the first character is neither '_' nor filtered out
      assert false;
    }
  }
}

=== FILE: text.dfy ===
/** String primitives that the dashboard's decision logic is built from:
    Python's str.lower(), str.strip(), str.split(), the substring test `in`,
    and the regular-expression rewrite "replace every maximal run of
    characters outside a class by one replacement character". */
module Text {

  datatype Option<T> = None | Some(value: T)

  /** Upper-case ASCII letters become lower-case; every other character is kept. */
  function LowerChar(c: char): char {
    if 'A' <= c <= 'Z' then (c as int - 'A' as int + 'a' as int) as char else c
  }

  /** str.lower(), on the ASCII letters. */
  function Lower(s: string): (r: string)
    ensures |r| == |s|
    ensures forall i :: 0 <= i < |s| ==> r[i] == LowerChar(s[i])
  {
    seq(|s|, i requires 0 <= i < |s| => LowerChar(s[i]))
  }

  lemma LowerTwice(s: string)
    ensures Lower(Lower(s)) == Lower(s)
  {
  }

  predicate IsUpper(c: char) { 'A' <= c <= 'Z' }

  /** The characters Python's str.isspace() accepts; str.strip() and str.split()
      with no argument use exactly these. */
  predicate IsSpace(c: char) {
    c == ' ' || '\t' <= c <= '\r' || '\U{1C}' <= c <= '\U{1F}' || c == '\U{85}' || c == '\U{A0}'
    || c == '\U{1680}' || '\U{2000}' <= c <= '\U{200A}' || c == '\U{2028}' || c == '\U{2029}'
    || c == '\U{202F}' || c == '\U{205F}' || c == '\U{3000}'
  }

  predicate IsDigit(c: char) { '0' <= c <= '9' }
  predicate IsLowerAlnum(c: char) { 'a' <= c <= 'z' || IsDigit(c) }
  predicate IsAsciiAlnum(c: char) { 'a' <= c <= 'z' || 'A' <= c <= 'Z' || IsDigit(c) }

  predicate IsUnderscore(c: char) { c == '_' }
  predicate IsNotUnderscore(c: char) { c != '_' }
  /** [\w\-] on ASCII text */
  predicate IsSlugChar(c: char) { IsAsciiAlnum(c) || c == '_' || c == '-' }
  predicate IsAlnumOrDash(c: char) { IsAsciiAlnum(c) || c == '-' }

  predicate All(s: string, p: char -> bool) {
    forall i :: 0 <= i < |s| ==> p(s[i])
  }

  /** Substring test, Python's `sub in s`. */
  predicate Contains(s: string, sub: string) {
    exists i :: 0 <= i <= |s| && sub <= s[i..]
  }

  lemma ContainsAt(s: string, sub: string, i: nat)
    requires i + |sub| <= |s| && s[i..i + |sub|] == sub
    ensures Contains(s, sub)
  {
    forall k | 0 <= k < |sub| ensures sub[k] == s[i..][k] {
      assert sub[k] == s[i..i + |sub|][k];
    }
    assert sub <= s[i..];
  }

  /** A position where `sub` occurs in `s`. */
  lemma ContainsWitness(s: string, sub: string) returns (i: nat)
    requires Contains(s, sub)
    ensures i + |sub| <= |s| && s[i..i + |sub|] == sub
  {
    i :| 0 <= i <= |s| && sub <= s[i..];
    assert s[i..i + |sub|] == sub;
  }

  /** Putting a character in front keeps every occurrence. */
  lemma ContainsCons(c: char, t: string, sub: string)
    requires Contains(t, sub)
    ensures Contains([c] + t, sub)
  {
    var p := ContainsWitness(t, sub);
    assert ([c] + t)[p + 1..p + 1 + |sub|] == t[p..p + |sub|];
    ContainsAt([c] + t, sub, p + 1);
  }

  /** An occurrence of `w` at `p` lies inside the slice `s[i..j]` around it. */
  lemma ContainsInSlice(s: string, w: string, i: nat, j: nat, p: nat)
    requires i <= p && p + |w| <= j <= |s| && s[p..p + |w|] == w
    ensures Contains(s[i..j], w)
  {
    var r := s[i..j];
    forall k | 0 <= k < |w| ensures w[k] == r[p - i..p - i + |w|][k] {
      assert w[k] == s[p..p + |w|][k] == s[p + k];
    }
    assert r[p - i..p - i + |w|] == w;
    ContainsAt(r, w, p - i);
  }

  /** An occurrence of `mid` in `s` is also an occurrence of everything `mid` contains. */
  lemma ContainsTransitive(s: string, mid: string, sub: string)
    requires Contains(s, mid) && Contains(mid, sub)
    ensures Contains(s, sub)
  {
    var i := ContainsWitness(s, mid);
    var j := ContainsWitness(mid, sub);
    forall k | 0 <= k < |sub| ensures sub[k] == s[i + j..i + j + |sub|][k] {
      assert sub[k] == mid[j..j + |sub|][k] == mid[j + k];
      assert mid[j + k] == s[i..i + |mid|][j + k] == s[i + j + k];
    }
    assert s[i + j..i + j + |sub|] == sub;
    ContainsAt(s, sub, i + j);
  }

  // ---------------------------------------------------------------------
  // Stripping (str.strip() and str.strip("_"))
  // ---------------------------------------------------------------------

  function StripLeft(s: string, drop: char -> bool): (r: string)
    ensures |r| <= |s| && r == s[|s| - |r|..]
    ensures forall k :: 0 <= k < |s| - |r| ==> drop(s[k])
    ensures r == [] || !drop(r[0])
  {
    if s != [] && drop(s[0]) then
      var r := StripLeft(s[1..], drop);
      assert forall k :: 1 <= k < |s| - |r| ==> s[k] == s[1..][k - 1];
      r
    else s
  }

  function StripRight(s: string, drop: char -> bool): (r: string)
    ensures |r| <= |s| && r == s[..|r|]
    ensures forall k :: |r| <= k < |s| ==> drop(s[k])
    ensures r == [] || !drop(r[|r| - 1])
  {
    if s != [] && drop(s[|s| - 1]) then
      var r := StripRight(s[..|s| - 1], drop);
      assert forall k :: |r| <= k < |s| - 1 ==> s[k] == s[..|s| - 1][k];
      r
    else s
  }

  /** Python's strip: both ends. */
  function Strip(s: string, drop: char -> bool): (r: string)
    ensures |r| <= |s|
    ensures r == [] || (!drop(r[0]) && !drop(r[|r| - 1]))
  {
    StripRight(StripLeft(s, drop), drop)
  }

  /** Lower-casing never turns a space into a non-space or back. */
  lemma {:induction false} StripLeftLower(s: string)
    ensures StripLeft(Lower(s), IsSpace) == Lower(StripLeft(s, IsSpace))
    decreases |s|
  {
    var l := Lower(s);
    if s != [] && IsSpace(s[0]) {
      assert IsSpace(l[0]);
      assert l[1..] == Lower(s[1..]);
      assert StripLeft(l, IsSpace) == StripLeft(l[1..], IsSpace);
      StripLeftLower(s[1..]);
    } else if s != [] {
      assert !IsSpace(l[0]);
      assert StripLeft(l, IsSpace) == l;
    }
  }

  lemma {:induction false} StripRightLower(s: string)
    ensures StripRight(Lower(s), IsSpace) == Lower(StripRight(s, IsSpace))
    decreases |s|
  {
    var l := Lower(s);
    if s != [] && IsSpace(s[|s| - 1]) {
      assert IsSpace(l[|s| - 1]);
      assert l[..|s| - 1] == Lower(s[..|s| - 1]);
      assert StripRight(l, IsSpace) == StripRight(l[..|s| - 1], IsSpace);
      StripRightLower(s[..|s| - 1]);
    } else if s != [] {
      assert !IsSpace(l[|s| - 1]);
      assert StripRight(l, IsSpace) == l;
    }
  }

  /** `s.lower().strip() == s.strip().lower()` */
  lemma TrimLower(s: string)
    ensures Trim(Lower(s)) == Lower(Trim(s))
  {
    StripLeftLower(s);
    StripRightLower(StripLeft(s, IsSpace));
  }

  /** Every character of `s` before position `i` and from position `j` on is droppable. */
  predicate Outer(s: string, i: nat, j: nat, drop: char -> bool)
    requires i <= j <= |s|
  {
    (forall k :: 0 <= k < i ==> drop(s[k])) && (forall k :: j <= k < |s| ==> drop(s[k]))
  }

  /** The result of Strip is the middle part of `s` that is left once every
      droppable character at either end has gone. */
  lemma {:induction false} StripMiddle(s: string, drop: char -> bool) returns (i: nat, j: nat)
    ensures i <= j <= |s| && Strip(s, drop) == s[i..j] && Outer(s, i, j, drop)
  {
    var l := StripLeft(s, drop);
    var r := StripRight(l, drop);
    assert Strip(s, drop) == r;
    i, j := |s| - |l|, |s| - |l| + |r|;
    assert l == s[i..];
    assert r == l[..|r|];
    assert l[..|r|] == s[i..j];
    forall k | 0 <= k < i ensures drop(s[k]) {
    }
    forall k | j <= k < |s| ensures drop(s[k]) {
      assert s[k] == l[k - i] && |r| <= k - i;
    }
  }

  /** str.strip() */
  function Trim(s: string): string { Strip(s, IsSpace) }

  /** A string with no droppable character at either end is its own strip. */
  lemma StripFixpoint(s: string, drop: char -> bool)
    requires s == [] || (!drop(s[0]) && !drop(s[|s| - 1]))
    ensures Strip(s, drop) == s
  {
  }

  /** Where Strip cuts, relative to two characters that are not droppable. */
  lemma StripBounds(s: string, drop: char -> bool, p: nat, q: nat) returns (i: nat, j: nat)
    requires p <= q < |s| && !drop(s[p]) && !drop(s[q])
    ensures i <= p && q < j <= |s| && Strip(s, drop) == s[i..j]
  {
    i, j := StripMiddle(s, drop);
    assert Outer(s, i, j, drop);
    assert forall k :: 0 <= k < i ==> drop(s[k]);
    assert forall k :: j <= k < |s| ==> drop(s[k]);
    if p < i || j <= q {
      assert false;
    }
  }

  /** Stripping keeps every occurrence of a word that neither starts nor ends
      with a droppable character. */
  lemma StripKeepsContains(s: string, w: string, drop: char -> bool)
    requires w != [] && !drop(w[0]) && !drop(w[|w| - 1])
    requires Contains(s, w)
    ensures Contains(Strip(s, drop), w)
  {
    var p := ContainsWitness(s, w);
    var q := p + |w| - 1;
    assert s[p] == w[0] && s[q] == w[|w| - 1];
    var i, j := StripBounds(s, drop, p, q);
    assert i <= p && p + |w| <= j <= |s|;
    ContainsInSlice(s, w, i, j, p);
  }

  // ---------------------------------------------------------------------
  // Run replacement: re.sub(r"[^K]+", rep, s)
  // ---------------------------------------------------------------------

  /** Drops the leading characters that are outside the class. */
  function SkipRun(s: string, keep: char -> bool): (r: string)
    ensures |r| <= |s| && r == s[|s| - |r|..]
    ensures forall i :: 0 <= i < |s| - |r| ==> !keep(s[i])
    ensures r == [] || keep(r[0])
  {
    if s != [] && !keep(s[0]) then
      var r := SkipRun(s[1..], keep);
      assert forall i :: 1 <= i < |s| - |r| ==> s[i] == s[1..][i - 1];
      r
    else s
  }

  /** Every maximal run of characters outside the class `keep` becomes one `rep`. */
  function SubRuns(s: string, keep: char -> bool, rep: char): (r: string)
    decreases |s|
  {
    if s == [] then []
    else if keep(s[0]) then [s[0]] + SubRuns(s[1..], keep, rep)
    else [rep] + SubRuns(SkipRun(s[1..], keep), keep, rep)
  }

  /** What SubRuns produces: kept characters and `rep`, and, when `rep` is
      itself outside the class, never two `rep`s in a row. */
  lemma {:induction false} SubRunsShape(s: string, keep: char -> bool, rep: char)
    ensures forall i :: 0 <= i < |SubRuns(s, keep, rep)| ==>
      keep(SubRuns(s, keep, rep)[i]) || SubRuns(s, keep, rep)[i] == rep
    ensures !keep(rep) ==> NoDoubled(SubRuns(s, keep, rep), rep)
    ensures SubRuns(s, keep, rep) == [] || (s != [] && (keep(s[0]) ==> SubRuns(s, keep, rep)[0] == s[0])
                                                     && (!keep(s[0]) ==> SubRuns(s, keep, rep)[0] == rep))
    decreases |s|
  {
    if s == [] {
    } else if keep(s[0]) {
      SubRunsShape(s[1..], keep, rep);
      var t := SubRuns(s[1..], keep, rep);
      assert SubRuns(s, keep, rep) == [s[0]] + t;
    } else {
      var rest := SkipRun(s[1..], keep);
      SubRunsShape(rest, keep, rep);
      var t := SubRuns(rest, keep, rep);
      assert SubRuns(s, keep, rep) == [rep] + t;
      assert t == [] || keep(t[0]);
    }
  }

  /** No two consecutive copies of `c`. */
  predicate NoDoubled(s: string, c: char) {
    forall i :: 0 <= i < |s| - 1 ==> !(s[i] == c && s[i + 1] == c)
  }

  lemma SliceAll(s: string, i: nat, j: nat, p: char -> bool)
    requires i <= j <= |s| && All(s, p)
    ensures All(s[i..j], p)
  {
    forall k | 0 <= k < j - i ensures p(s[i..j][k]) {
      assert s[i..j][k] == s[i + k];
    }
  }

  lemma SliceNoDoubled(s: string, i: nat, j: nat, c: char)
    requires i <= j <= |s| && NoDoubled(s, c)
    ensures NoDoubled(s[i..j], c)
  {
    var t := s[i..j];
    forall k | 0 <= k < |t| - 1 ensures !(t[k] == c && t[k + 1] == c) {
      assert t[k] == s[i + k] && t[k + 1] == s[i + k + 1];
    }
  }

  /** A property shared by every character of `s` and by `rep` holds of every
      character of the result. */
  lemma {:induction false} SubRunsKeepsAll(s: string, keep: char -> bool, rep: char, p: char -> bool)
    requires All(s, p) && p(rep)
    ensures All(SubRuns(s, keep, rep), p)
    decreases |s|
  {
    if s != [] {
      if keep(s[0]) {
        SubRunsKeepsAll(s[1..], keep, rep, p);
      } else {
        var t := SkipRun(s[1..], keep);
        assert forall i :: 0 <= i < |t| ==> t[i] == s[1..][|s[1..]| - |t| + i];
        SubRunsKeepsAll(t, keep, rep, p);
      }
    }
  }

  /** A string already made of kept characters and isolated `rep`s is left alone. */
  lemma {:induction false} SubRunsFixpoint(s: string, keep: char -> bool, rep: char)
    requires !keep(rep)
    requires forall i :: 0 <= i < |s| ==> keep(s[i]) || s[i] == rep
    requires NoDoubled(s, rep)
    ensures SubRuns(s, keep, rep) == s
    decreases |s|
  {
    if s != [] {
      SubRunsFixpoint(s[1..], keep, rep);
      if !keep(s[0]) {
        assert s[1..] == [] || keep(s[1]);
        assert SkipRun(s[1..], keep) == s[1..];
      }
    }
  }

  /** When every character is kept, SubRuns is the identity. */
  lemma {:induction false} SubRunsAllKept(s: string, keep: char -> bool, rep: char)
    requires All(s, keep)
    ensures SubRuns(s, keep, rep) == s
    decreases |s|
  {
    if s != [] {
      SubRunsAllKept(s[1..], keep, rep);
    }
  }

  /** A kept run at the front passes through unchanged. */
  lemma {:induction false} SubRunsKeptPrefix(w: string, y: string, keep: char -> bool, rep: char)
    requires All(w, keep)
    ensures SubRuns(w + y, keep, rep) == w + SubRuns(y, keep, rep)
    decreases |w|
  {
    if w == [] {
      assert w + y == y;
    } else {
      var s, t := w + y, w[1..];
      assert s[0] == w[0] && s[1..] == t + y;
      forall i | 0 <= i < |t| ensures keep(t[i]) {
        assert t[i] == w[i + 1];
      }
      SubRunsKeepStep(s, keep, rep);
      SubRunsKeptPrefix(t, y, keep, rep);
      var r := SubRuns(y, keep, rep);
      assert SubRuns(s, keep, rep) == [w[0]] + (t + r);
      assert [w[0]] + (t + r) == ([w[0]] + t) + r;
      assert w == [w[0]] + t;
    }
  }

  lemma {:induction false} SkipRunAppend(a: string, b: string, keep: char -> bool)
    ensures SkipRun(a + b, keep) == if SkipRun(a, keep) == [] then SkipRun(b, keep) else SkipRun(a, keep) + b
    decreases |a|
  {
    if a == [] {
      assert a + b == b;
    } else {
      var s := a + b;
      assert s[0] == a[0] && s[1..] == a[1..] + b;
      if !keep(a[0]) {
        SkipRunAppend(a[1..], b, keep);
        assert SkipRun(s, keep) == SkipRun(a[1..] + b, keep);
        assert SkipRun(a, keep) == SkipRun(a[1..], keep);
      } else {
        assert SkipRun(s, keep) == s && SkipRun(a, keep) == a;
      }
    }
  }

  /** Two strings of the same length that agree on their kept characters and
      are dropped at the same positions. */
  predicate SameKept(s: string, t: string, keep: char -> bool) {
    |s| == |t| && forall i :: 0 <= i < |s| ==> keep(s[i]) == keep(t[i]) && (keep(s[i]) ==> s[i] == t[i])
  }

  lemma SameKeptTail(s: string, t: string, keep: char -> bool)
    requires SameKept(s, t, keep) && s != []
    ensures SameKept(s[1..], t[1..], keep)
  {
    forall i | 0 <= i < |s| - 1 ensures keep(s[1..][i]) == keep(t[1..][i]) && (keep(s[1..][i]) ==> s[1..][i] == t[1..][i]) {
      assert s[1..][i] == s[i + 1] && t[1..][i] == t[i + 1];
    }
  }

  lemma {:induction false} SkipRunSameKept(s: string, t: string, keep: char -> bool)
    requires SameKept(s, t, keep)
    ensures SameKept(SkipRun(s, keep), SkipRun(t, keep), keep)
    decreases |s|
  {
    if s != [] {
      if keep(s[0]) {
        assert SkipRun(s, keep) == s && SkipRun(t, keep) == t;
      } else {
        SameKeptTail(s, t, keep);
        SkipRunSameKept(s[1..], t[1..], keep);
        assert SkipRun(s, keep) == SkipRun(s[1..], keep) && SkipRun(t, keep) == SkipRun(t[1..], keep);
      }
    }
  }

  /** Which character stood in a dropped run does not matter to SubRuns. */
  lemma {:induction false} SubRunsSameKept(s: string, t: string, keep: char -> bool, rep: char)
    requires SameKept(s, t, keep)
    ensures SubRuns(s, keep, rep) == SubRuns(t, keep, rep)
    decreases |s|
  {
    if s != [] {
      if keep(s[0]) {
        SameKeptTail(s, t, keep);
        SubRunsSameKept(s[1..], t[1..], keep, rep);
        SubRunsKeepStep(s, keep, rep);
        SubRunsKeepStep(t, keep, rep);
      } else {
        SameKeptTail(s, t, keep);
        SkipRunSameKept(s[1..], t[1..], keep);
        SubRunsSameKept(SkipRun(s[1..], keep), SkipRun(t[1..], keep), keep, rep);
        SubRunsDropStep(s, keep, rep);
        SubRunsDropStep(t, keep, rep);
      }
    }
  }

  lemma SubRunsKeepStep(s: string, keep: char -> bool, rep: char)
    requires s != [] && keep(s[0])
    ensures SubRuns(s, keep, rep) == [s[0]] + SubRuns(s[1..], keep, rep)
  {
  }

  lemma SubRunsDropStep(s: string, keep: char -> bool, rep: char)
    requires s != [] && !keep(s[0])
    ensures SubRuns(s, keep, rep) == [rep] + SubRuns(SkipRun(s[1..], keep), keep, rep)
  {
  }

  /** Skipping dropped characters in front of a kept run stops at the run. */
  lemma SkipRunBeforeRun(x: string, v: string, keep: char -> bool) returns (x': string)
    requires v != [] && keep(v[0])
    ensures |x'| <= |x| && SkipRun(x + v, keep) == x' + v
  {
    SkipRunAppend(x, v, keep);
    assert SkipRun(v, keep) == v;
    x' := if SkipRun(x, keep) == [] then [] else SkipRun(x, keep);
  }

  lemma KeptRunAtFront(w: string, y: string, keep: char -> bool, rep: char)
    requires All(w, keep)
    ensures Contains(SubRuns(w + y, keep, rep), w)
  {
    SubRunsKeptPrefix(w, y, keep, rep);
    var r := SubRuns(y, keep, rep);
    assert (w + r)[0..|w|] == w;
    ContainsAt(w + r, w, 0);
  }

  /** A kept first character stays in front of the run. */
  lemma {:induction false} KeptRunAfterKept(x: string, w: string, y: string, keep: char -> bool, rep: char)
    requires x != [] && keep(x[0])
    requires Contains(SubRuns(x[1..] + w + y, keep, rep), w)
    ensures Contains(SubRuns(x + w + y, keep, rep), w)
  {
    var s := x + w + y;
    assert s[0] == x[0] && s[1..] == x[1..] + w + y;
    SubRunsKeepStep(s, keep, rep);
    ContainsCons(s[0], SubRuns(s[1..], keep, rep), w);
  }

  /** A dropped first character starts a run that ends before `w`. */
  lemma {:induction false} KeptRunAfterDropped(x: string, w: string, y: string, keep: char -> bool, rep: char) returns (x': string)
    requires x != [] && !keep(x[0]) && w != [] && keep(w[0])
    ensures |x'| < |x|
    ensures Contains(SubRuns(x' + w + y, keep, rep), w) ==> Contains(SubRuns(x + w + y, keep, rep), w)
  {
    var s, v := x + w + y, w + y;
    assert s[0] == x[0] && s[1..] == x[1..] + v;
    assert v[0] == w[0];
    SubRunsDropStep(s, keep, rep);
    x' := SkipRunBeforeRun(x[1..], v, keep);
    var t := SubRuns(x' + v, keep, rep);
    assert SubRuns(s, keep, rep) == [rep] + t;
    assert x' + v == x' + w + y;
    if Contains(t, w) {
      ContainsCons(rep, t, w);
    }
  }

  /** A kept run surrounded by arbitrary text survives run replacement. */
  lemma {:induction false} SubRunsKeepsRun(x: string, w: string, y: string, keep: char -> bool, rep: char)
    requires w != [] && All(w, keep)
    ensures Contains(SubRuns(x + w + y, keep, rep), w)
    decreases |x|
  {
    if x == [] {
      assert x + w + y == w + y;
      KeptRunAtFront(w, y, keep, rep);
    } else if keep(x[0]) {
      SubRunsKeepsRun(x[1..], w, y, keep, rep);
      KeptRunAfterKept(x, w, y, keep, rep);
    } else {
      var x' := KeptRunAfterDropped(x, w, y, keep, rep);
      SubRunsKeepsRun(x', w, y, keep, rep);
    }
  }

  function Filter(s: string, p: char -> bool): (r: string)
    ensures All(r, p)
  {
    if s == [] then [] else (if p(s[0]) then [s[0]] else []) + Filter(s[1..], p)
  }

  lemma {:induction false} FilterAppend(a: string, b: string, p: char -> bool)
    ensures Filter(a + b, p) == Filter(a, p) + Filter(b, p)
    decreases |a|
  {
    if a == [] {
      assert a + b == b;
    } else {
      assert (a + b)[1..] == a[1..] + b;
      FilterAppend(a[1..], b, p);
    }
  }

  lemma {:induction false} FilterNone(s: string, p: char -> bool)
    requires forall i :: 0 <= i < |s| ==> !p(s[i])
    ensures Filter(s, p) == []
    decreases |s|
  {
    if s != [] {
      FilterNone(s[1..], p);
    }
  }

  /** Replacing runs of characters outside `keep` by a `rep` that `q` rejects
      leaves the `q`-characters, in order, untouched (for `q` inside `keep`). */
  lemma {:induction false} SubRunsFilter(s: string, keep: char -> bool, rep: char, q: char -> bool)
    requires forall c :: q(c) ==> keep(c)
    requires !q(rep)
    ensures Filter(SubRuns(s, keep, rep), q) == Filter(s, q)
    decreases |s|
  {
    if s != [] {
      if keep(s[0]) {
        SubRunsFilter(s[1..], keep, rep, q);
        assert SubRuns(s, keep, rep) == [s[0]] + SubRuns(s[1..], keep, rep);
        assert ([s[0]] + SubRuns(s[1..], keep, rep))[1..] == SubRuns(s[1..], keep, rep);
      } else {
        var rest := SkipRun(s[1..], keep);
        SubRunsFilter(rest, keep, rep, q);
        assert SubRuns(s, keep, rep) == [rep] + SubRuns(rest, keep, rep);
        assert ([rep] + SubRuns(rest, keep, rep))[1..] == SubRuns(rest, keep, rep);
        var skipped := s[1..][..|s| - 1 - |rest|];
        assert s[1..] == skipped + rest;
        FilterAppend(skipped, rest, q);
        FilterNone(skipped, q);
      }
    }
  }

  /** Stripping characters that `q` rejects keeps the `q`-characters in order. */
  lemma StripLeftFilter(s: string, drop: char -> bool, q: char -> bool)
    requires forall c :: drop(c) ==> !q(c)
    ensures Filter(StripLeft(s, drop), q) == Filter(s, q)
  {
    var r := StripLeft(s, drop);
    var a := s[..|s| - |r|];
    assert s == a + r;
    forall k | 0 <= k < |a| ensures !q(a[k]) {
      assert a[k] == s[k];
    }
    FilterNone(a, q);
    FilterAppend(a, r, q);
  }

  lemma StripRightFilter(s: string, drop: char -> bool, q: char -> bool)
    requires forall c :: drop(c) ==> !q(c)
    ensures Filter(StripRight(s, drop), q) == Filter(s, q)
  {
    var r := StripRight(s, drop);
    var b := s[|r|..];
    assert s == r + b;
    forall k | 0 <= k < |b| ensures !q(b[k]) {
      assert b[k] == s[|r| + k];
    }
    FilterNone(b, q);
    FilterAppend(r, b, q);
  }

  lemma StripFilter(s: string, drop: char -> bool, q: char -> bool)
    requires forall c :: drop(c) ==> !q(c)
    ensures Filter(Strip(s, drop), q) == Filter(s, q)
  {
    StripLeftFilter(s, drop, q);
    StripRightFilter(StripLeft(s, drop), drop, q);
  }

  // ---------------------------------------------------------------------
  // Splitting on whitespace (str.split() with no argument)
  // ---------------------------------------------------------------------

  /** The leading run of non-space characters. */
  function TakeWord(s: string): (r: string)
    ensures |r| <= |s| && r == s[..|r|]
    ensures s != [] && !IsSpace(s[0]) ==> r != []
  {
    if s == [] || IsSpace(s[0]) then [] else [s[0]] + TakeWord(s[1..])
  }

  /** The whitespace-separated words of `s`, empty words never included. */
  function Split(s: string): (r: seq<string>)
    ensures forall k :: 0 <= k < |r| ==> r[k] != []
    decreases |s|
  {
    if s == [] then []
    else if IsSpace(s[0]) then Split(s[1..])
    else
      var w := TakeWord(s);
      [w] + Split(s[|w|..])
  }

  /** set(s.split()) */
  function Tokens(s: string): set<string> {
    set w | w in Split(s)
  }

  // ---------------------------------------------------------------------
  // str.replace(old, new) for a one-character `old`
  // ---------------------------------------------------------------------

  function Replace(s: string, c: char, with: string): (r: string)
    ensures |with| <= 1 ==> |r| <= |s|
    ensures c !in s ==> r == s
  {
    if s == [] then [] else (if s[0] == c then with else [s[0]]) + Replace(s[1..], c, with)
  }

  /** Replacing a character by a single character works position by position. */
  lemma {:induction false} ReplaceChar(s: string, c: char, d: char)
    ensures |Replace(s, c, [d])| == |s|
    ensures forall i :: 0 <= i < |s| ==> Replace(s, c, [d])[i] == if s[i] == c then d else s[i]
    decreases |s|
  {
    if s != [] {
      var u, h := s[1..], if s[0] == c then d else s[0];
      ReplaceChar(u, c, d);
      var t := Replace(u, c, [d]);
      var r := Replace(s, c, [d]);
      assert r == [h] + t;
      assert |r| == |s|;
      forall i | 0 <= i < |s| ensures r[i] == if s[i] == c then d else s[i] {
        if i > 0 {
          assert r[i] == t[i - 1] && s[i] == u[i - 1];
        }
      }
    }
  }

  /** s.endswith(suffix) */
  predicate EndsWith(s: string, suffix: string) {
    |suffix| <= |s| && s[|s| - |suffix|..] == suffix
  }

  /** `.str.strip().str.lower()` */
  function Canon(s: string): string {
    Lower(Trim(s))
  }

  // ---------------------------------------------------------------------
  // First match in a list
  // ---------------------------------------------------------------------

  /** The test "equals `x`". */
  function EqualTo<T(==)>(x: T): T -> bool {
    y => y == x
  }

  /** The index of the first element satisfying `p`, or |s| when there is none. */
  function FirstIndex<T>(s: seq<T>, p: T -> bool): (i: nat)
    ensures i <= |s|
    ensures i < |s| ==> p(s[i])
    ensures forall j :: 0 <= j < i ==> !p(s[j])
    decreases |s|
  {
    if s == [] then 0
    else if p(s[0]) then 0
    else
      var i := FirstIndex(s[1..], p);
      assert forall j :: 1 <= j < 1 + i ==> s[j] == s[1..][j - 1];
      1 + i
  }

  /** The first match is the one at the least index that satisfies `p`. */
  lemma FirstIndexUnique<T>(s: seq<T>, p: T -> bool, i: nat)
    requires i <= |s| && (i < |s| ==> p(s[i])) && forall j :: 0 <= j < i ==> !p(s[j])
    ensures FirstIndex(s, p) == i
  {
  }

  lemma FirstIndexSnoc<T>(s: seq<T>, x: T, p: T -> bool)
    ensures FirstIndex(s + [x], p)
         == (var f := FirstIndex(s, p); if f < |s| then f else if p(x) then |s| else |s| + 1)
  {
    var s' := s + [x];
    assert forall j :: 0 <= j < |s| ==> s'[j] == s[j];
    var f := FirstIndex(s, p);
    FirstIndexUnique(s', p, if f < |s| then f else if p(x) then |s| else |s| + 1);
  }

  /** Once a prefix holds a match, the rest of the list does not change the first match. */
  lemma FirstIndexPrefix<T>(s: seq<T>, n: nat, p: T -> bool)
    requires n <= |s| && FirstIndex(s[..n], p) < n
    ensures FirstIndex(s, p) == FirstIndex(s[..n], p)
  {
    assert forall j :: 0 <= j < n ==> s[..n][j] == s[j];
    FirstIndexUnique(s, p, FirstIndex(s[..n], p));
  }
}

=== FILE: workbooks.dfy ===
/** Which class folder and which spreadsheet in it the dashboard reads. */
module Workbooks {
  import opened Text

  const MarksSuffix := "_marks"

  /** Folder name and class name agree once stripped and lower-cased. */
  predicate SameClass(name: string, klass: string) {
    Canon(name) == Canon(klass)
  }

  /** The class folder: the first whose stripped, lower-cased name equals the
      stripped, lower-cased class name. */
  function ClassFolder(folders: seq<string>, klass: string): (r: Option<nat>)
    ensures r.Some? ==> r.value < |folders| && SameClass(folders[r.value], klass)
    ensures r.Some? ==> forall k :: 0 <= k < r.value ==> !SameClass(folders[k], klass)
    ensures r.None? ==> forall k :: 0 <= k < |folders| ==> !SameClass(folders[k], klass)
  {
    var k := FirstIndex(folders, name => SameClass(name, klass));
    if k < |folders| then Some(k) else None
  }

  predicate IsMarksBook(name: string) {
    EndsWith(Lower(name), MarksSuffix)
  }

  /** The spreadsheet read, as its position in the folder's listing (two
      files may share a name): the first whose lower-cased name ends in
      "_marks", otherwise the first one; none when the folder has none. */
  function ChooseWorkbook(names: seq<string>): (r: Option<nat>)
    ensures r.None? <==> names == []
    ensures r.Some? ==> r.value < |names|
    ensures (exists k :: 0 <= k < |names| && IsMarksBook(names[k])) ==>
      r.Some? && IsMarksBook(names[r.value]) && forall k :: 0 <= k < r.value ==> !IsMarksBook(names[k])
    ensures (forall k :: 0 <= k < |names| ==> !IsMarksBook(names[k])) && names != [] ==> r == Some(0)
  {
    if names == [] then None
    else
      var k := FirstIndex(names, IsMarksBook);
      if k < |names| then Some(k) else Some(0)
  }
}
